=== FILE: README.md ===
# album-manager-googlephotos: a Dafny model of the sync core

`push_local_structure_to_googlephotos.py` copies a local folder tree into Google Photos as albums.
A run has five parts:

1. It lists the remote media items and albums page by page, or loads a cached copy of them.
2. It walks the local tree and groups the media files of each directory into albums. The album is either one already found on the walk whose name occurs in the path, or a name computed from the path. With "monthly" naming that name is the deepest `YYYY-…` component.
3. For each local album it looks up the remote album by title, or creates it.
4. It splits the album's files into those the catalog already holds (matched by file name) and those it must upload. It uploads the missing ones and registers them in batch-create requests of at most 50.
5. It adds every id to the album in batch-add requests of at most 50, de-duplicated within each request.

The Dafny project models this decision logic as pure functions over sequences, maps and sets. The directory walk, the listing responses and the remote service are given as inputs. The modules follow the program's structure:

- `Wrappers`: `Option` and `Result`.
- `Seqs`: first-match search, filtering and sub-sequences, prefixes, concatenation, and slicing into chunks (`xs[i:i+n] for i in range(0, len(xs), n)`).
- `Strings`: Python's `str.split`, `str.endswith`, substring `in` and ASCII upper-casing.
- `MediaFilter`: `filter_media_items`.
- `LocalAlbums`: `get_local_albums` exactly as written, quirks included.
- `IntendedScan`: `get_local_albums` with four departures of its code corrected: the monthly fallback, the reset at line 115, the missing folder prefix and the record names. The `\d{4}-` pattern, the substring prefix test and the substring reuse test stay as written. It also holds the small walks that show each departure.
- `Catalog`: the two paging loops, `get_album_id`, and the media lookup by file name.
- `Reconcile`:
  - the partition, upload and batch-create part of `get_album_media_items`;
  - the batch-add requests;
  - the main loop over local albums;
  - what happens when the sync is run twice.

The code departs from what its help text and its own structure evidently intend in these places. The model follows the code in each:

- **Monthly pattern.** The pattern `\d{4}-\d{0,2}` under `re.match` accepts any name that starts with four digits and a dash. A month is not required.
- **Monthly fallback.** When no component looks monthly, the album is named after the root-most component of `dirpath.split('/')`, not the folder that holds the files. For an absolute path that component is `""`.
- **Album reset.** A directory whose album is found as `""` recomputes its name, and line 115 then replaces the list of the album it lands on, discarding files stored there before.
- **Folder prefix.** When no folder prefix is given, the scan fails on the first directory with a `TypeError`. It does not treat the missing prefix as "no filter".
- **Record names.** A record is named `album + '_' + file`. Album names may contain `_`, so files of two different albums can get the same name, and the catalog then treats them as one file.

Other behaviour of the code that the model states:

- **Repeated runs.** Take a service that creates every album under the requested title with a non-empty id, and answers every batch-create entry with a media item that has a non-empty id and the requested file name. Take a cache whose ids are all non-empty. Then a second run over an unchanged tree creates nothing and uploads nothing (`Reconcile.SecondRunCreatesAndUploadsNothing`). It still re-sends every album's ids in batch-add requests (`Reconcile.SecondRunStillAdds`).
- **Empty ids.** A cached media item whose id is `""` never counts as uploaded, so its file is uploaded again on every run (`Reconcile.EmptyIdQueuedAgain`). A cached album whose id is `""` is never reused, so every run creates another album with that title (`Reconcile.EmptyAlbumIdRecreated`).
- **Nested folders.** A sub-folder joins the album whose name its path contains (lines 103-106). Two files with the same name in a folder and in its sub-folder therefore get the same record name in one album (`IntendedScan.NestedFoldersShareName`). Once one of them is catalogued, the other is linked to the same item and never uploaded (`Reconcile.SharedNameSharesId`). Files with the same name in two different albums always get different record names (`LocalAlbums.GetLocalAlbumsSameFileDistinctNames`).

## Model

All source paths are relative to the repository root.

| member | source | states |
|---|---|---|
| Seqs.FirstIndex | album_manager_googlephotos/push_local_structure_to_googlephotos.py:122-125 | The index found is the first element satisfying the predicate; none is returned only when no element does |
| Seqs.FilterSpec | album_manager_googlephotos/push_local_structure_to_googlephotos.py:84-89 | A filter result is an order-preserving sub-sequence that keeps every occurrence of an accepted element exactly once and drops the rest |
| Seqs.Chunks | album_manager_googlephotos/push_local_structure_to_googlephotos.py:168 | Slicing by `n` gives chunks of 1..n elements whose concatenation is the input, and no chunk at all for an empty input |
| Seqs.ChunksCount | album_manager_googlephotos/push_local_structure_to_googlephotos.py:168 | The number of chunks is the ceiling of length / n |
| Seqs.ChunksAreSlices | album_manager_googlephotos/push_local_structure_to_googlephotos.py:221 | The list comprehension `[xs[i:i+n] for i in range(start, len(xs), n)]` is exactly the chunking of `xs[start:]` |
| Strings.Split | album_manager_googlephotos/push_local_structure_to_googlephotos.py:109 | `s.split(c)` has at least one piece, no piece contains `c`, and joining the pieces with `c` gives back `s` |
| Strings.SplitPiecesOccur | album_manager_googlephotos/push_local_structure_to_googlephotos.py:109-110 | Every piece of a split path is a substring of the path, so a computed album name always occurs in its directory path |
| Strings.SplitLast | album_manager_googlephotos/push_local_structure_to_googlephotos.py:85 | The last piece is the separator-free suffix after the last separator (the whole string if there is none) |
| MediaFilter.Extension | album_manager_googlephotos/push_local_structure_to_googlephotos.py:85 | `name.split('.')[-1]` contains no dot, ends the name, and is either the whole name or preceded by a dot |
| MediaFilter.TypesDisjoint | album_manager_googlephotos/push_local_structure_to_googlephotos.py:81-83 | No extension is both a photo type and a video type |
| MediaFilter.AppendsFor | album_manager_googlephotos/push_local_structure_to_googlephotos.py:86-89 | For one name the two independent appends add the name exactly once if its upper-cased extension is a photo or video type, and nothing otherwise |
| MediaFilter.FilterMediaItems | album_manager_googlephotos/push_local_structure_to_googlephotos.py:79-90 | Because the two lists are disjoint, the two independent appends add each name at most once, so the result is the order-preserving filter by "upper-cased extension is a photo or video type" |
| MediaFilter.FilterMediaItemsOrdered | album_manager_googlephotos/push_local_structure_to_googlephotos.py:79-90 | The kept names are an order-preserving sub-sequence of the input |
| MediaFilter.FilterMediaItemsMembers | album_manager_googlephotos/push_local_structure_to_googlephotos.py:79-90 | A name is kept iff it is one of the input names and its extension is a photo or video type |
| MediaFilter.FilterMediaItemsCounts | album_manager_googlephotos/push_local_structure_to_googlephotos.py:79-90 | Each occurrence of a media name is kept exactly once, and no other name is kept |
| LocalAlbums.MonthlyIndex | album_manager_googlephotos/push_local_structure_to_googlephotos.py:109-112 | The leaf-to-root search stops at the deepest component that starts with four digits and a dash, and otherwise ends on the root-most component |
| LocalAlbums.TargetName | album_manager_googlephotos/push_local_structure_to_googlephotos.py:107-114 | The computed name occurs in the path. With monthly naming it is the component where the search stops; without it, it is the last component |
| LocalAlbums.FirstContained | album_manager_googlephotos/push_local_structure_to_googlephotos.py:102-106 | The album found is the first known name in insertion order that is a substring of the path; none is found iff no known name is |
| LocalAlbums.Step | album_manager_googlephotos/push_local_structure_to_googlephotos.py:95-117 | One directory keeps the album map well formed (distinct keys in insertion order), adds at most one key at the end, and leaves the map unchanged unless the directory passes the prefix test and holds media |
| LocalAlbums.Walk | album_manager_googlephotos/push_local_structure_to_googlephotos.py:95-117 | The walk keeps the map well formed and only ever appends keys to the insertion order |
| LocalAlbums.GetLocalAlbums | album_manager_googlephotos/push_local_structure_to_googlephotos.py:93-118 | The scan fails iff no folder prefix is given and the walk has a directory; an empty walk gives no albums |
| LocalAlbums.RootNeverContributes | album_manager_googlephotos/push_local_structure_to_googlephotos.py:96-97 | The walk root itself never passes the prefix test and changes nothing |
| LocalAlbums.StepJoinsKnownAlbum | album_manager_googlephotos/push_local_structure_to_googlephotos.py:103-117 | When the first known album in the path is non-empty, the directory's records are appended to that album and nothing else changes |
| LocalAlbums.StepCreatesAlbum | album_manager_googlephotos/push_local_structure_to_googlephotos.py:107-117 | When no known album occurs in the path, the computed name is a new key at the end of the order, holding exactly this directory's records |
| LocalAlbums.StepOnlyGrowsWithoutEmptyKey | album_manager_googlephotos/push_local_structure_to_googlephotos.py:102-117 | Unless `""` is an album key, a step never shortens or rewrites any album's list |
| LocalAlbums.RecordNamedAfter | album_manager_googlephotos/push_local_structure_to_googlephotos.py:116-117 | The record for media file `f` under album `a` is named `a + "_" + f` and its path ends in `"/" + f` |
| LocalAlbums.RecordsNamedAfter | album_manager_googlephotos/push_local_structure_to_googlephotos.py:116-117 | Every record built for a directory is named after its album |
| LocalAlbums.StepNamedAfter | album_manager_googlephotos/push_local_structure_to_googlephotos.py:95-117 | A step keeps every record named after the album that holds it |
| LocalAlbums.WalkNamedAfter | album_manager_googlephotos/push_local_structure_to_googlephotos.py:95-117 | After any walk, every record under key `k` is `k + "_" + f` for a media name `f`, with a path ending in `"/" + f` |
| LocalAlbums.GetLocalAlbumsNamedAfter | album_manager_googlephotos/push_local_structure_to_googlephotos.py:93-118 | The same holds for every successful scan |
| LocalAlbums.DistinctAlbumsDistinctNames | album_manager_googlephotos/push_local_structure_to_googlephotos.py:116-117 | Records named after two different albums and built from the same media file name have different names |
| LocalAlbums.GetLocalAlbumsSameFileDistinctNames | album_manager_googlephotos/push_local_structure_to_googlephotos.py:93-118 | In every successful scan, a record of one album and a record of another album built from the same media file name (the text after `album + "_"`) have different names. That text is also the last component of the record's path, whenever walk file names hold no `/`, as `os.walk` guarantees |
| LocalAlbums.WalkSkipsNonContributing | album_manager_googlephotos/push_local_structure_to_googlephotos.py:96-101 | Directories that fail the prefix test or hold no media leave the albums unchanged |
| IntendedScan.TargetName | album_manager_googlephotos/push_local_structure_to_googlephotos.py:34-37 | The name is the deepest monthly-looking component when there is one and monthly naming is on, and the leaf folder otherwise. It occurs in the path and contains no `/` |
| IntendedScan.Step | album_manager_googlephotos/push_local_structure_to_googlephotos.py:102-117 | The corrected step appends to an existing album instead of resetting it. It keeps the map well formed, adds at most one key, and skips the same directories as the original |
| IntendedScan.StepKeepsLists | album_manager_googlephotos/push_local_structure_to_googlephotos.py:107-117 | With the corrected step, every album already present stays present and its list is kept as a prefix |
| IntendedScan.StepAddsMedia | album_manager_googlephotos/push_local_structure_to_googlephotos.py:115-117 | With the corrected step, the total number of records grows by exactly the directory's media count when the prefix test passes, and not at all otherwise |
| IntendedScan.StepLosesNothing | album_manager_googlephotos/push_local_structure_to_googlephotos.py:115-117 | Every album's list only grows, and the total number of records grows by exactly the directory's media count |
| IntendedScan.WalkLosesNothing | album_manager_googlephotos/push_local_structure_to_googlephotos.py:95-117 | After the corrected walk, the records number exactly the media files of all directories that pass the prefix test, and earlier lists are kept as prefixes |
| IntendedScan.GetLocalAlbums | album_manager_googlephotos/push_local_structure_to_googlephotos.py:93-118 | The corrected scan never fails (a missing prefix is the empty one) and holds one record per qualifying media file |
| IntendedScan.AsWrittenMonthlyFallback | album_manager_googlephotos/push_local_structure_to_googlephotos.py:108-112 | For `/p/a` with monthly naming the code computes `""`, while the corrected name is `"a"` |
| IntendedScan.EmptyNameResetScenario | album_manager_googlephotos/push_local_structure_to_googlephotos.py:103-117 | Two one-file directories whose computed name is `""` leave only the second file in the code's result, while their media count is 2 |
| IntendedScan.AsWrittenResetDropsFiles | album_manager_googlephotos/push_local_structure_to_googlephotos.py:103-117 | Concretely, sibling folders `/p/x` and `/p/y` under root `/p` with one photo each yield a single record, for the second photo |
| IntendedScan.NamesUnderDistinctAlbums | album_manager_googlephotos/push_local_structure_to_googlephotos.py:116-117 | Two names that start with two different `/`-free album names, each followed by `/`, differ whatever follows |
| IntendedScan.GetLocalAlbumsNamesDistinct | album_manager_googlephotos/push_local_structure_to_googlephotos.py:93-118 | With the corrected names, in every walk, no record of one album shares its name with a record of another album |
| IntendedScan.NestedFoldersShareName | album_manager_googlephotos/push_local_structure_to_googlephotos.py:103-117 | Folders `/p/x` and `/p/x/q` each holding `d.jpg`, no monthly naming: both scans give the single album `x` with two records of one and the same name |
| IntendedScan.AsWrittenNameCollision | album_manager_googlephotos/push_local_structure_to_googlephotos.py:103-117 | Folder `/p/x_y` holding `d.jpg` walked before `/p/x` holding `y_d.jpg`: the code gives albums `x_y` and `x` whose records are both named `x_y_d.jpg` |
| IntendedScan.IntendedNamesSeparate | album_manager_googlephotos/push_local_structure_to_googlephotos.py:103-117 | On the same walk the corrected scan gives the same two albums, and the two record names differ |
| IntendedScan.AsWrittenMissingPrefix | album_manager_googlephotos/push_local_structure_to_googlephotos.py:96 | Without a folder prefix the code fails on any non-empty walk, while the corrected scan behaves as with the empty prefix |
| Catalog.Paginate | album_manager_googlephotos/push_local_structure_to_googlephotos.py:43-76 | The listing succeeds iff some response lacks a continuation token. It returns the records of every page up to and including the first such response. The first request carries no token and each later one carries the token of the response before it |
| Catalog.DownloadMediaItems | album_manager_googlephotos/push_local_structure_to_googlephotos.py:43-58 | Media items are listed with page size 100. The listing succeeds iff some response has no next-page token, and then returns exactly the items of the responses up to and including the first such one |
| Catalog.DownloadAlbumsInfo | album_manager_googlephotos/push_local_structure_to_googlephotos.py:61-76 | Albums are listed with page size 50. The listing succeeds iff some response has no next-page token, and then returns exactly the albums of the responses up to and including the first such one |
| Catalog.GetAlbumId | album_manager_googlephotos/push_local_structure_to_googlephotos.py:121-125 | Returns the id of the first album with the title, and nothing iff no album has it |
| Catalog.LookupMediaId | album_manager_googlephotos/push_local_structure_to_googlephotos.py:136-140 | Returns the id of the first catalog item with the file name, and nothing iff no item has it |
| Catalog.GetAlbumIdAppend | album_manager_googlephotos/push_local_structure_to_googlephotos.py:216 | Appending a created album never changes the answer for a title already present |
| Catalog.LookupMediaIdAppend | album_manager_googlephotos/push_local_structure_to_googlephotos.py:173-176 | Appending catalog items never changes the answer for a name already present |
| Reconcile.PartitionFiles | album_manager_googlephotos/push_local_structure_to_googlephotos.py:133-145 | Each file lands in exactly one output. The upload queue is the files without a usable id, in order. The ids are the catalog ids of the other files, in order, and none is empty |
| Reconcile.PartitionSpec | album_manager_googlephotos/push_local_structure_to_googlephotos.py:135-145 | A file is queued iff it is one of the album's files and the catalog has no non-empty id for its name; the queue is an order-preserving sub-sequence of the files |
| Reconcile.NothingMissingNothingQueued | album_manager_googlephotos/push_local_structure_to_googlephotos.py:135-145 | When every file is already catalogued, nothing is uploaded and every file contributes an id |
| Reconcile.AppendResults | album_manager_googlephotos/push_local_structure_to_googlephotos.py:171-176 | One response succeeds iff every result has a media item. On success the ids grow by exactly the returned items' ids and the catalog by exactly those items, in result order |
| Reconcile.CreateAll | album_manager_googlephotos/push_local_structure_to_googlephotos.py:168-176 | Batch-creating fails iff some response has a result without a media item. Otherwise the ids and the catalog grow by exactly the returned items, batch after batch, in order |
| Reconcile.GetAlbumMediaItems | album_manager_googlephotos/push_local_structure_to_googlephotos.py:132-178 | The pass fails exactly when some entry of its batch-create requests is answered without a media item (the `KeyError` at line 172). On success: the uploaded files are exactly the album's files without a usable catalog id, in album order. The batch-create requests together carry exactly their upload tokens. The catalog grows by exactly the created items. The returned ids are the catalog ids of the present files followed by the created items' ids |
| Reconcile.ToSet | album_manager_googlephotos/push_local_structure_to_googlephotos.py:223 | `set(batch)` has exactly the batch's elements, no more of them than the batch, and at least one when the batch is non-empty |
| Reconcile.AddRequestsSpec | album_manager_googlephotos/push_local_structure_to_googlephotos.py:221-223 | Every add request names the album and holds 1..50 distinct ids. Together the requests hold exactly the album's ids, and there is no request iff there is no id |
| Reconcile.DedupIsPerBatch | album_manager_googlephotos/push_local_structure_to_googlephotos.py:221-223 | De-duplication is per batch only: 51 copies of one id produce two requests with that same id |
| Reconcile.ProcessAlbum | album_manager_googlephotos/push_local_structure_to_googlephotos.py:208-223 | One album's pass fails iff its `get_album_media_items` fails. It only appends to the catalog and the logged mutations, and creates an album iff the lookup gives no id or an empty id. It uploads only files of this album the catalog lacked. Its new add requests are exactly the batches of the returned ids, sent to the reused or the created album |
| Reconcile.SyncAlbums | album_manager_googlephotos/push_local_structure_to_googlephotos.py:208-223 | The loop over local albums only appends to the catalog and the mutation log |
| Reconcile.Sync | album_manager_googlephotos/push_local_structure_to_googlephotos.py:204-223 | A run only appends to the cached albums and media items |
| Reconcile.GetAlbumMediaItemsBounded | album_manager_googlephotos/push_local_structure_to_googlephotos.py:168 | Every batch-create request holds 1..50 entries |
| Reconcile.ProcessAlbumBounded | album_manager_googlephotos/push_local_structure_to_googlephotos.py:208-223 | One album's pass issues only requests of 1..50 entries |
| Reconcile.SyncAlbumsBounded | album_manager_googlephotos/push_local_structure_to_googlephotos.py:208-223 | Every batch-create and batch-add request of the loop holds 1..50 entries |
| Reconcile.SyncBounded | album_manager_googlephotos/push_local_structure_to_googlephotos.py:204-223 | The same holds for a whole run |
| Reconcile.KnownExtends | album_manager_googlephotos/push_local_structure_to_googlephotos.py:216 | An album and files known to the catalog stay known when the catalog is appended to |
| Reconcile.RegistersConcat | album_manager_googlephotos/push_local_structure_to_googlephotos.py:168-176 | Registering two runs of entries one after the other registers their concatenation |
| Reconcile.AppendResultsHonest | album_manager_googlephotos/push_local_structure_to_googlephotos.py:171-176 | A well-behaved response registers every entry of its batch under the entry's file name, with a non-empty id |
| Reconcile.CreateAllHonest | album_manager_googlephotos/push_local_structure_to_googlephotos.py:168-176 | With a well-behaved service, all batches succeed and the catalog grows by one item per uploaded file, in order, under its file name |
| Reconcile.PresentIffListed | album_manager_googlephotos/push_local_structure_to_googlephotos.py:136-146 | In a catalog whose ids are all non-empty, a file is treated as present exactly when some catalog item has its file name |
| Reconcile.UsableIffTitled | album_manager_googlephotos/push_local_structure_to_googlephotos.py:210-216 | In a catalog whose album ids are all non-empty, an album is reused exactly when some remote album has its title |
| Reconcile.GetAlbumMediaItemsRegisters | album_manager_googlephotos/push_local_structure_to_googlephotos.py:147-176 | With a well-behaved service, the pass succeeds and appends one catalog item per queued file, in queue order and under that file's name, with non-empty ids |
| Reconcile.GetAlbumMediaItemsHonest | album_manager_googlephotos/push_local_structure_to_googlephotos.py:132-178 | With a well-behaved service, after one album's pass every file of the album is in the catalog and all ids stay non-empty |
| Reconcile.ProcessAlbumHonest | album_manager_googlephotos/push_local_structure_to_googlephotos.py:208-217 | With a well-behaved service, after one album's pass the catalog knows the album and all its files |
| Reconcile.SharedNameSharesId | album_manager_googlephotos/push_local_structure_to_googlephotos.py:136-146 | A file whose name is that of a catalogued item with a non-empty id is not queued, and that item's id is collected for it |
| Reconcile.EmptyIdQueuedAgain | album_manager_googlephotos/push_local_structure_to_googlephotos.py:137-143 | A file whose cached item has the id `""` is queued for upload, whatever items are appended to the catalog |
| Reconcile.EmptyAlbumIdRecreated | album_manager_googlephotos/push_local_structure_to_googlephotos.py:210-216 | When the first cached album with the title has the id `""`, a pass creates a new album, and afterwards the title still resolves to `""` |
| Reconcile.PresentIdCollected | album_manager_googlephotos/push_local_structure_to_googlephotos.py:136-146 | The catalog id of an album file that is present is among the ids the partition collects |
| Reconcile.FileIdReturned | album_manager_googlephotos/push_local_structure_to_googlephotos.py:136-176 | With a well-behaved service and a clean catalog, the id the catalog gives for any album file after the pass is one of the ids the pass returns |
| Reconcile.ProcessAlbumTargetsTitledAlbum | album_manager_googlephotos/push_local_structure_to_googlephotos.py:210-216 | With a well-behaved service and a clean catalog, the album the ids are added to is the first album the catalog lists under the local album's name after the pass |
| Reconcile.ProcessAlbumAddsEveryFile | album_manager_googlephotos/push_local_structure_to_googlephotos.py:208-223 | With a well-behaved service and a clean catalog, every file of the album has a catalog id after the pass, and that id is in one of the pass's add requests, all of which target the album found or created for the name |
| Reconcile.ProcessKnownAlbum | album_manager_googlephotos/push_local_structure_to_googlephotos.py:208-223 | An album whose title and files the catalog already holds causes no create and no upload and leaves the catalog unchanged, but still causes add requests when it has files |
| Reconcile.KnownCons | album_manager_googlephotos/push_local_structure_to_googlephotos.py:208-217 | Knowledge of the first album and of the rest combines into knowledge of all |
| Reconcile.SyncAlbumsHonest | album_manager_googlephotos/push_local_structure_to_googlephotos.py:208-223 | With a well-behaved service the loop succeeds and leaves every local album and file known to a clean catalog |
| Reconcile.SyncAlbumsKnown | album_manager_googlephotos/push_local_structure_to_googlephotos.py:208-223 | Over a catalog that knows everything, the loop creates and uploads nothing and changes no cached data; it issues add requests if any album has files |
| Reconcile.SecondRunCreatesAndUploadsNothing | album_manager_googlephotos/push_local_structure_to_googlephotos.py:204-223 | Running twice with a well-behaved service: the second run creates no album, uploads nothing, issues no batch-create, and leaves the catalog as the first run left it |
| Reconcile.SecondRunStillAdds | album_manager_googlephotos/push_local_structure_to_googlephotos.py:221-223 | The second run still issues at least one batch-add request whenever some local album has a file |

## Left out

- The OAuth flow, credential refresh and credential files (`google_helper.py`). Authentication is outside the decision logic.
- Argument parsing and logging. Their only effect is on which inputs reach the model: the root, the monthly flag and the optional prefix.
- Reading file bytes and the raw upload request (lines 148-167). `Service.upload` stands for them and gives one token per queued file.
- The remote calls (list, create, batch-create, batch-add). They are inputs: the listing responses are a sequence of pages, and `Service` holds the other calls as functions of their request.
  - Because these are functions, the service is deterministic.
  - Network failures and HTTP errors are not modelled. The only remote failure modelled is a batch-create result without a media item (the `KeyError` at line 172).
- A listing that never returns a page without a continuation token. The program would keep requesting; the model ends with `ResponsesExhausted` when the given pages run out.
- The JSON checkpointing (`save`, and loading the cached files at lines 186-202). A run starts from a given catalog and its state is kept in memory, so resuming after a crash is not modelled.
- `os.walk` traversal order and `dirnames`. The walk is an input sequence of `(dirpath, filenames)` pairs.
- Albums keep only `id` and `title`, and media items only `id` and `filename`. The other fields of the stored album dictionaries are never read.
- Unicode: `\d` is modelled as ASCII digits and `str.upper` as ASCII upper-casing.
- `MediaFilter.FilterMediaItems`: `filter_media_items` appends a name once per list that holds its extension. The model proves the lists disjoint and then states the result as a single filter.
- `Reconcile.AddRequestsSpec`: the order of ids inside one request (`[i for i in set(batch)]`) follows Python's set iteration order, which is unspecified. A request therefore holds a set.

## Findings

| source | as written | input that shows it | evidently intended | confidence | as-written member | corrected member |
|---|---|---|---|---|---|---|
| album_manager_googlephotos/push_local_structure_to_googlephotos.py:108-112 | With monthly naming and no monthly-looking component, the search ends on the root-most component of `dirpath.split('/')`, which is `""` for an absolute path | `/p/a` with monthly naming gives album `""` | The folder that holds the files (`"a"`), as the `--monthly_albums` help text says | not executed | IntendedScan.AsWrittenMonthlyFallback | IntendedScan.TargetName |
| album_manager_googlephotos/push_local_structure_to_googlephotos.py:107-115 | A found album `""` is falsy, so the name is recomputed. Line 115 then resets that album's list, discarding records already stored | Root `/p`, monthly naming, empty prefix, folders `/p/x` and `/p/y` with one photo each: only the second photo's record survives | Every media file of a qualifying directory is kept; an existing album is appended to | not executed | IntendedScan.AsWrittenResetDropsFiles | IntendedScan.WalkLosesNothing |
| album_manager_googlephotos/push_local_structure_to_googlephotos.py:96 | `--folder_prefix` is optional, but when it is absent, `local_album_path + '/' + None` raises `TypeError` on the first directory | Any non-empty walk with no prefix | A missing prefix means no filtering | not executed | IntendedScan.AsWrittenMissingPrefix | IntendedScan.GetLocalAlbums |
| album_manager_googlephotos/push_local_structure_to_googlephotos.py:116-117 | A record is named `album + '_' + file`. Album names may contain `_`, so two different (album, file) pairs can give one name, and lines 137-141 then treat the second file as already uploaded | Root `/p`, no monthly naming, empty prefix: `/p/x_y` holding `d.jpg` walked before `/p/x` holding `y_d.jpg`. Both records are named `x_y_d.jpg`; once the first is catalogued, the second is never uploaded and album `x` receives the first photo's id (`Reconcile.SharedNameSharesId`) | Records of different albums never share a name | not executed | IntendedScan.AsWrittenNameCollision | IntendedScan.GetLocalAlbumsNamesDistinct |

=== FILE: catalog.dfy ===
/** The remote catalog as the sync sees it: the listing of media items and albums page by page
    (`download_media_items`, `download_albums_info`) and the first-match lookups over the
    listed records (`get_album_id`, and the media lookup of `get_album_media_items`). */
module Catalog {
  import opened Wrappers
  import Seqs

  /** A remote media item, reduced to the two fields the sync keeps (`{'id', 'filename'}`). */
  datatype MediaItem = MediaItem(id: string, filename: string)

  /** A remote album; the sync only reads `id` and `title`. */
  datatype RemoteAlbum = RemoteAlbum(id: string, title: string)

  /** One listing response: the records (the key may be missing) and the continuation token
      (absent on the last page). */
  datatype Page<T> = Page(items: Option<seq<T>>, nextPageToken: Option<string>)

  /** One listing request: the fixed page size and the token of the previous response. */
  datatype ListRequest = ListRequest(pageSize: nat, pageToken: Option<string>)

  datatype Listing<T> = Listing(items: seq<T>, requests: seq<ListRequest>)

  /** The responses ran out before one came without a continuation token. */
  datatype ListError = ResponsesExhausted

  const MediaItemsPageSize: nat := 100
  const AlbumsPageSize: nat := 50

  function PageItems<T>(p: Page<T>): seq<T>
  {
    if p.items.Some? then p.items.value else []
  }

  predicate IsLastPage<T>(p: Page<T>)
  {
    p.nextPageToken.None?
  }

  /** The records of the first `n` pages, in page order. */
  function Collected<T>(pages: seq<Page<T>>, n: nat): seq<T>
    requires n <= |pages|
  {
    if n == 0 then [] else Collected(pages, n - 1) + PageItems(pages[n - 1])
  }

  /** The first `n` requests: the first carries no token, each later one the token of the
      response before it. */
  function Requests<T>(pageSize: nat, pages: seq<Page<T>>, n: nat): seq<ListRequest>
    requires n <= |pages|
  {
    seq(n, j requires 0 <= j < n => ListRequest(pageSize, if j == 0 then None else pages[j - 1].nextPageToken))
  }

  /** The `while True` listing loop: request, keep the page's records, follow the continuation
      token, stop after the first page without one. It succeeds exactly when such a page exists,
      and then returns the records of every page up to and including it. */
  method Paginate<T>(pageSize: nat, pages: seq<Page<T>>) returns (r: Result<Listing<T>, ListError>)
    ensures r.Success? <==> exists k :: 0 <= k < |pages| && IsLastPage(pages[k])
    ensures r.Success? ==>
      exists n :: 0 < n <= |pages| && IsLastPage(pages[n - 1])
        && (forall j :: 0 <= j < n - 1 ==> !IsLastPage(pages[j]))
        && r.value.items == Collected(pages, n)
        && r.value.requests == Requests(pageSize, pages, n)
  {
    var items: seq<T> := [];
    var requests: seq<ListRequest> := [];
    var token: Option<string> := None;
    var i := 0;
    while i < |pages|
      invariant 0 <= i <= |pages|
      invariant forall j :: 0 <= j < i ==> !IsLastPage(pages[j])
      invariant items == Collected(pages, i)
      invariant requests == Requests(pageSize, pages, i)
      invariant token == if i == 0 then None else pages[i - 1].nextPageToken
    {
      requests := requests + [ListRequest(pageSize, token)];
      var page := pages[i];
      items := items + PageItems(page);
      token := page.nextPageToken;
      i := i + 1;
      if token.None? {
        assert IsLastPage(pages[i - 1]);
        assert items == Collected(pages, i);
        assert requests == Requests(pageSize, pages, i);
        return Success(Listing(items, requests));
      }
    }
    return Failure(ResponsesExhausted);
  }

  /** `download_media_items`: pages of 100 media items. */
  method DownloadMediaItems(pages: seq<Page<MediaItem>>) returns (r: Result<Listing<MediaItem>, ListError>)
    ensures r.Success? <==> exists k :: 0 <= k < |pages| && IsLastPage(pages[k])
    ensures r.Success? ==> forall j :: 0 <= j < |r.value.requests| ==> r.value.requests[j].pageSize == 100
    ensures r.Success? ==>
      exists n :: 0 < n <= |pages| && IsLastPage(pages[n - 1])
        && (forall j :: 0 <= j < n - 1 ==> !IsLastPage(pages[j]))
        && r.value.items == Collected(pages, n)
  {
    r := Paginate(MediaItemsPageSize, pages);
  }

  /** `download_albums_info`: pages of 50 albums. */
  method DownloadAlbumsInfo(pages: seq<Page<RemoteAlbum>>) returns (r: Result<Listing<RemoteAlbum>, ListError>)
    ensures r.Success? <==> exists k :: 0 <= k < |pages| && IsLastPage(pages[k])
    ensures r.Success? ==> forall j :: 0 <= j < |r.value.requests| ==> r.value.requests[j].pageSize == 50
    ensures r.Success? ==>
      exists n :: 0 < n <= |pages| && IsLastPage(pages[n - 1])
        && (forall j :: 0 <= j < n - 1 ==> !IsLastPage(pages[j]))
        && r.value.items == Collected(pages, n)
  {
    r := Paginate(AlbumsPageSize, pages);
  }

  function HasTitle(title: string): RemoteAlbum -> bool
  {
    (a: RemoteAlbum) => a.title == title
  }

  /** `get_album_id`: the id of the first album titled `title`, if any. */
  function GetAlbumId(title: string, albums: seq<RemoteAlbum>): (r: Option<string>)
    ensures r.None? <==> forall i :: 0 <= i < |albums| ==> albums[i].title != title
    ensures r.Some? ==> exists i :: 0 <= i < |albums| && albums[i].title == title && r.value == albums[i].id
                                   && forall j :: 0 <= j < i ==> albums[j].title != title
  {
    match Seqs.FirstIndex(albums, HasTitle(title))
    case None => None
    case Some(i) => Some(albums[i].id)
  }

  function HasFilename(filename: string): MediaItem -> bool
  {
    (m: MediaItem) => m.filename == filename
  }

  /** Lines 137-140: the id of the first catalog entry named `filename`, if any. */
  function LookupMediaId(filename: string, items: seq<MediaItem>): (r: Option<string>)
    ensures r.None? <==> forall i :: 0 <= i < |items| ==> items[i].filename != filename
    ensures r.Some? ==> exists i :: 0 <= i < |items| && items[i].filename == filename && r.value == items[i].id
                                   && forall j :: 0 <= j < i ==> items[j].filename != filename
  {
    match Seqs.FirstIndex(items, HasFilename(filename))
    case None => None
    case Some(i) => Some(items[i].id)
  }

  /** Appending albums never changes the answer for a title that is already present. */
  lemma GetAlbumIdAppend(title: string, albums: seq<RemoteAlbum>, more: seq<RemoteAlbum>)
    requires GetAlbumId(title, albums).Some?
    ensures GetAlbumId(title, albums + more) == GetAlbumId(title, albums)
  {
    Seqs.FirstIndexAppend(albums, more, HasTitle(title));
  }

  /** Appending media items never changes the answer for a name that is already present. */
  lemma LookupMediaIdAppend(filename: string, items: seq<MediaItem>, more: seq<MediaItem>)
    requires LookupMediaId(filename, items).Some?
    ensures LookupMediaId(filename, items + more) == LookupMediaId(filename, items)
  {
    Seqs.FirstIndexAppend(items, more, HasFilename(filename));
  }
}

=== FILE: intended_scan.dfy ===
/** `get_local_albums` with the departures of its code corrected:
    - the monthly fallback is the folder that holds the files, as the `--monthly_albums` help
      describes, not the root-most path component;
    - a directory whose computed album already exists is appended to it instead of resetting
      it (line 115);
    - a missing folder prefix means no filter (line 96);
    - a record is named `album + "/" + file`, so records of different albums never share a name
      (lines 116-117 join with `_`).
    Everything else is kept as written: the `\d{4}-` pattern, the substring prefix test and the
    substring reuse test of lines 103-106. With these corrections no scanned media file is lost. */
module IntendedScan {
  import opened Wrappers
  import opened Strings
  import MediaFilter
  import Seqs
  import LA = LocalAlbums

  /** The number of records held by the albums, summed in key order. */
  function SumLengths(names: seq<string>, files: map<string, seq<LA.LocalFile>>): nat
    requires forall i :: 0 <= i < |names| ==> names[i] in files
  {
    if |names| == 0 then 0
    else SumLengths(names[..|names| - 1], files) + |files[names[|names| - 1]]|
  }

  function TotalFiles(a: LA.Albums): nat
    requires LA.Valid(a)
  {
    SumLengths(a.names, a.files)
  }

  /** The number of media files in the walk's directories that pass the prefix test. */
  function MediaCount(root: string, prefix: string, walk: seq<LA.DirEntry>): nat
  {
    if |walk| == 0 then 0
    else
      (if LA.PrefixMatches(root, prefix, walk[0]) then |MediaFilter.FilterMediaItems(walk[0].filenames)| else 0)
      + MediaCount(root, prefix, walk[1..])
  }

  lemma {:induction false} SumUnchangedOff(names: seq<string>, files: map<string, seq<LA.LocalFile>>, k: string, v: seq<LA.LocalFile>)
    requires forall i :: 0 <= i < |names| ==> names[i] in files
    requires k !in names
    ensures SumLengths(names, files[k := v]) == SumLengths(names, files)
  {
    if |names| > 0 {
      SumUnchangedOff(names[..|names| - 1], files, k, v);
    }
  }

  lemma {:induction false} SumAppendAt(names: seq<string>, files: map<string, seq<LA.LocalFile>>, k: string, extra: seq<LA.LocalFile>)
    requires forall i :: 0 <= i < |names| ==> names[i] in files
    requires forall i, j :: 0 <= i < j < |names| ==> names[i] != names[j]
    requires k in names
    ensures SumLengths(names, files[k := files[k] + extra]) == SumLengths(names, files) + |extra|
  {
    var init := names[..|names| - 1];
    var last := names[|names| - 1];
    if last == k {
      assert k !in init;
      SumUnchangedOff(init, files, k, files[k] + extra);
    } else {
      assert k in init;
      SumAppendAt(init, files, k, extra);
    }
  }

  lemma SumAddKey(names: seq<string>, files: map<string, seq<LA.LocalFile>>, t: string, v: seq<LA.LocalFile>)
    requires forall i :: 0 <= i < |names| ==> names[i] in files
    requires t !in names
    ensures SumLengths(names + [t], files[t := v]) == SumLengths(names, files) + |v|
  {
    assert (names + [t])[..|names|] == names;
    SumUnchangedOff(names, files, t, v);
  }

  /** The intended album name: the deepest monthly-looking component when monthly naming is on
      and one exists, and the leaf folder otherwise. */
  function TargetName(dirpath: string, monthly: bool): (t: string)
    ensures Contains(dirpath, t) && '/' !in t
    ensures var parts := Split(dirpath, '/');
      monthly && (exists j :: 0 <= j < |parts| && LA.IsMonthlyName(parts[j])) ==>
        exists k: nat :: LA.DeepestMonthly(parts, k) && t == parts[k] && LA.IsMonthlyName(t)
    ensures var parts := Split(dirpath, '/');
      (!monthly || forall j :: 0 <= j < |parts| ==> !LA.IsMonthlyName(parts[j])) ==> t == parts[|parts| - 1]
  {
    SplitPiecesOccur(dirpath, '/');
    var parts := Split(dirpath, '/');
    if monthly then
      var k := LA.MonthlyIndex(parts);
      if LA.IsMonthlyName(parts[k]) then
        assert LA.DeepestMonthly(parts, k);
        parts[k]
      else parts[|parts| - 1]
    else parts[|parts| - 1]
  }

  /** The intended record name: album and media file name joined by `/`, a character no album
      name contains, since every album name is one component of a path. */
  function RecordName(album: string, f: string): string
  {
    album + "/" + f
  }

  /** The records for the media files `media` of `dirpath` under album `album`. */
  function Records(album: string, dirpath: string, media: seq<string>): seq<LA.LocalFile>
  {
    seq(|media|, i requires 0 <= i < |media| => LA.LocalFile(RecordName(album, media[i]), dirpath + "/" + media[i]))
  }

  /** `name` starts with `album + "/"`. */
  predicate NamedUnder(album: string, name: string)
  {
    |name| > |album| && name[.. |album| + 1] == album + "/"
  }

  /** No album name contains `/`, and every record is named under its album. */
  ghost predicate WellNamed(a: LA.Albums)
  {
    && (forall k :: k in a.files ==> '/' !in k)
    && (forall k, i :: k in a.files && 0 <= i < |a.files[k]| ==> NamedUnder(k, a.files[k][i].filename))
  }

  /** Names under two different `/`-free albums differ, whatever follows the album. */
  lemma NamesUnderDistinctAlbums(k1: string, n1: string, k2: string, n2: string)
    requires '/' !in k1 && '/' !in k2 && k1 != k2
    requires NamedUnder(k1, n1) && NamedUnder(k2, n2)
    ensures n1 != n2
  {
    if |k1| < |k2| {
      assert n1[|k1|] == (k1 + "/")[|k1|] == '/';
      assert n2[|k1|] == k2[|k1|] && k2[|k1|] in k2;
    } else if |k2| < |k1| {
      assert n2[|k2|] == (k2 + "/")[|k2|] == '/';
      assert n1[|k2|] == k1[|k2|] && k1[|k2|] in k1;
    } else {
      assert n1[..|k1|] == n1[..|k1| + 1][..|k1|] == (k1 + "/")[..|k1|] == k1;
      assert n2[..|k2|] == n2[..|k2| + 1][..|k2|] == (k2 + "/")[..|k2|] == k2;
    }
  }

  lemma RecordsNamedUnder(album: string, dirpath: string, media: seq<string>)
    ensures forall i :: 0 <= i < |media| ==> NamedUnder(album, Records(album, dirpath, media)[i].filename)
  {
    forall i | 0 <= i < |media|
      ensures NamedUnder(album, Records(album, dirpath, media)[i].filename)
    {
      assert RecordName(album, media[i])[.. |album| + 1] == album + "/";
    }
  }

  /** The album a contributing directory's files go to has no `/` in its name. */
  lemma AlbumForFree(a: LA.Albums, monthly: bool, dirpath: string)
    requires LA.Valid(a) && WellNamed(a)
    ensures '/' !in AlbumFor(a, monthly, dirpath)
  {
    var found := LA.FirstContained(a.names, dirpath);
    if found.Some? && found.value != "" {
      var i :| 0 <= i < |a.names| && a.names[i] == found.value;
      assert found.value in a.files;
    }
  }

  lemma StepWellNamed(a: LA.Albums, root: string, monthly: bool, prefix: string, e: LA.DirEntry)
    requires LA.Valid(a) && WellNamed(a)
    ensures WellNamed(Step(a, root, monthly, prefix, e))
  {
    if LA.Contributes(root, prefix, e) {
      var media := MediaFilter.FilterMediaItems(e.filenames);
      var k := AlbumFor(a, monthly, e.dirpath);
      AlbumForFree(a, monthly, e.dirpath);
      var recs := Records(k, e.dirpath, media);
      RecordsNamedUnder(k, e.dirpath, media);
      var list := if k in a.files then a.files[k] + recs else recs;
      forall i | 0 <= i < |list|
        ensures NamedUnder(k, list[i].filename)
      {
        if k in a.files && i < |a.files[k]| {
          assert list[i] == a.files[k][i];
        } else if k in a.files {
          assert list[i] == recs[i - |a.files[k]|];
        }
      }
      assert Step(a, root, monthly, prefix, e).files == a.files[k := list];
    }
  }

  /** One directory of the walk, appending to the album it belongs to and never resetting one. */
  function Step(a: LA.Albums, root: string, monthly: bool, prefix: string, e: LA.DirEntry): (r: LA.Albums)
    requires LA.Valid(a)
    ensures LA.Valid(r)
    ensures |a.names| <= |r.names| <= |a.names| + 1 && r.names[..|a.names|] == a.names
    ensures !LA.Contributes(root, prefix, e) ==> r == a
  {
    if !LA.PrefixMatches(root, prefix, e) then a
    else
      var media := MediaFilter.FilterMediaItems(e.filenames);
      if |media| == 0 then a
      else
        var k := AlbumFor(a, monthly, e.dirpath);
        var recs := Records(k, e.dirpath, media);
        if k in a.files then LA.Albums(a.names, a.files[k := a.files[k] + recs])
        else LA.Albums(a.names + [k], a.files[k := recs])
  }

  /** Lines 102-114 with the corrected fallback: the first known album contained in the path
      when that album's name is non-empty, or else the computed name (a first match `""` is
      not looked past). */
  function AlbumFor(a: LA.Albums, monthly: bool, dirpath: string): string
  {
    var found := LA.FirstContained(a.names, dirpath);
    if found.Some? && found.value != "" then found.value else TargetName(dirpath, monthly)
  }

  /** Appending to one key's list, or adding a new key, keeps every list as a prefix. */
  lemma UpdateKeepsLists(files: map<string, seq<LA.LocalFile>>, k: string, v: seq<LA.LocalFile>)
    requires k in files ==> Seqs.IsPrefix(files[k], v)
    ensures forall n :: n in files ==> n in files[k := v] && Seqs.IsPrefix(files[n], files[k := v][n])
  {
  }

  /** The corrected step never shortens or rewrites an album's list. */
  lemma StepKeepsLists(a: LA.Albums, root: string, monthly: bool, prefix: string, e: LA.DirEntry)
    requires LA.Valid(a)
    ensures forall k :: k in a.files ==>
              (k in Step(a, root, monthly, prefix, e).files && Seqs.IsPrefix(a.files[k], Step(a, root, monthly, prefix, e).files[k]))
  {
    var media := MediaFilter.FilterMediaItems(e.filenames);
    if LA.PrefixMatches(root, prefix, e) && |media| > 0 {
      var k := AlbumFor(a, monthly, e.dirpath);
      var recs := Records(k, e.dirpath, media);
      var v := if k in a.files then a.files[k] + recs else recs;
      if k in a.files {
        assert (a.files[k] + recs)[..|a.files[k]|] == a.files[k];
      }
      UpdateKeepsLists(a.files, k, v);
      assert Step(a, root, monthly, prefix, e).files == a.files[k := v];
    }
  }

  /** The corrected step adds one record per media file of a directory that passes the prefix
      test. */
  lemma StepAddsMedia(a: LA.Albums, root: string, monthly: bool, prefix: string, e: LA.DirEntry)
    requires LA.Valid(a)
    ensures TotalFiles(Step(a, root, monthly, prefix, e)) == TotalFiles(a)
              + (if LA.PrefixMatches(root, prefix, e) then |MediaFilter.FilterMediaItems(e.filenames)| else 0)
  {
    var media := MediaFilter.FilterMediaItems(e.filenames);
    if LA.PrefixMatches(root, prefix, e) && |media| > 0 {
      var k := AlbumFor(a, monthly, e.dirpath);
      var recs := Records(k, e.dirpath, media);
      if k in a.files {
        SumAppendAt(a.names, a.files, k, recs);
      } else {
        SumAddKey(a.names, a.files, k, recs);
      }
    }
  }

  /** Every media file of a directory that passes the prefix test is added, and nothing already
      stored is lost or reordered. */
  lemma StepLosesNothing(a: LA.Albums, root: string, monthly: bool, prefix: string, e: LA.DirEntry)
    requires LA.Valid(a)
    ensures forall k :: k in a.files ==>
              (k in Step(a, root, monthly, prefix, e).files && Seqs.IsPrefix(a.files[k], Step(a, root, monthly, prefix, e).files[k]))
    ensures TotalFiles(Step(a, root, monthly, prefix, e)) == TotalFiles(a)
              + (if LA.PrefixMatches(root, prefix, e) then |MediaFilter.FilterMediaItems(e.filenames)| else 0)
  {
    StepKeepsLists(a, root, monthly, prefix, e);
    StepAddsMedia(a, root, monthly, prefix, e);
  }

  /** The walk with the intended step. */
  function Walk(a: LA.Albums, root: string, monthly: bool, prefix: string, walk: seq<LA.DirEntry>): (r: LA.Albums)
    requires LA.Valid(a)
    ensures LA.Valid(r)
    decreases |walk|
  {
    if |walk| == 0 then a else Walk(Step(a, root, monthly, prefix, walk[0]), root, monthly, prefix, walk[1..])
  }

  /** The albums end up holding exactly one record per media file of every directory that passes
      the prefix test, on top of what they held, which is kept. */
  lemma {:induction false} WalkLosesNothing(a: LA.Albums, root: string, monthly: bool, prefix: string, walk: seq<LA.DirEntry>)
    requires LA.Valid(a)
    ensures TotalFiles(Walk(a, root, monthly, prefix, walk)) == TotalFiles(a) + MediaCount(root, prefix, walk)
    ensures forall k :: k in a.files ==>
              (k in Walk(a, root, monthly, prefix, walk).files && Seqs.IsPrefix(a.files[k], Walk(a, root, monthly, prefix, walk).files[k]))
    decreases |walk|
  {
    if |walk| > 0 {
      var a' := Step(a, root, monthly, prefix, walk[0]);
      StepLosesNothing(a, root, monthly, prefix, walk[0]);
      WalkLosesNothing(a', root, monthly, prefix, walk[1..]);
      var r := Walk(a, root, monthly, prefix, walk);
      assert r == Walk(a', root, monthly, prefix, walk[1..]);
      forall k | k in a.files
        ensures k in r.files && Seqs.IsPrefix(a.files[k], r.files[k])
      {
        Seqs.PrefixTransitive(a.files[k], a'.files[k], r.files[k]);
      }
    }
  }

  /** The intended scan: no folder prefix means every directory under the root qualifies. */
  function GetLocalAlbums(root: string, monthly: bool, prefix: Option<string>, walk: seq<LA.DirEntry>): (r: LA.Albums)
    ensures LA.Valid(r)
    ensures TotalFiles(r) == MediaCount(root, if prefix.Some? then prefix.value else "", walk)
  {
    var p := if prefix.Some? then prefix.value else "";
    WalkLosesNothing(LA.NoAlbums, root, monthly, p, walk);
    Walk(LA.NoAlbums, root, monthly, p, walk)
  }

  lemma {:induction false} WalkWellNamed(a: LA.Albums, root: string, monthly: bool, prefix: string, walk: seq<LA.DirEntry>)
    requires LA.Valid(a) && WellNamed(a)
    ensures WellNamed(Walk(a, root, monthly, prefix, walk))
    decreases |walk|
  {
    if |walk| > 0 {
      StepWellNamed(a, root, monthly, prefix, walk[0]);
      WalkWellNamed(Step(a, root, monthly, prefix, walk[0]), root, monthly, prefix, walk[1..]);
    }
  }

  /** With the intended names no two records of different albums are ever named alike. */
  lemma GetLocalAlbumsNamesDistinct(root: string, monthly: bool, prefix: Option<string>, walk: seq<LA.DirEntry>)
    ensures var a := GetLocalAlbums(root, monthly, prefix, walk);
      forall k1, k2, i, j :: k1 in a.files && k2 in a.files && k1 != k2
        && 0 <= i < |a.files[k1]| && 0 <= j < |a.files[k2]|
        ==> a.files[k1][i].filename != a.files[k2][j].filename
  {
    var a := GetLocalAlbums(root, monthly, prefix, walk);
    WalkWellNamed(LA.NoAlbums, root, monthly, if prefix.Some? then prefix.value else "", walk);
    forall k1, k2, i, j | k1 in a.files && k2 in a.files && k1 != k2
        && 0 <= i < |a.files[k1]| && 0 <= j < |a.files[k2]|
      ensures a.files[k1][i].filename != a.files[k2][j].filename
    {
      NamesUnderDistinctAlbums(k1, a.files[k1][i].filename, k2, a.files[k2][j].filename);
    }
  }

  // ---------------------------------------------------------------------------
  // The code as written, on small walks

  /** Without `--folder_prefix` the scan as written fails on the first directory of any walk,
      while the intended scan treats the missing prefix as the empty one. */
  lemma AsWrittenMissingPrefix(root: string, monthly: bool, walk: seq<LA.DirEntry>)
    requires |walk| > 0
    ensures LA.GetLocalAlbums(root, monthly, None, walk) == Failure(LA.MissingPrefix)
    ensures GetLocalAlbums(root, monthly, None, walk) == GetLocalAlbums(root, monthly, Some(""), walk)
  {
  }

  lemma SplitLeaf(x: char, c: char)
    requires x != c
    ensures Split([x], c) == [[x]]
  {
    assert [x][1..] == "";
  }

  lemma SplitSeparatorFirst(x: char, t: string, c: char)
    requires x == c
    ensures Split([x] + t, c) == [""] + Split(t, c)
  {
    assert ([x] + t)[1..] == t;
  }

  lemma SplitCharFirst(x: char, t: string, c: char, first: string, more: seq<string>)
    requires x != c && Split(t, c) == [first] + more
    ensures Split([x] + t, c) == [[x] + first] + more
  {
    assert ([x] + t)[1..] == t;
  }

  /** `'/p/' + leaf` splits into `''`, `'p'` and the leaf. */
  lemma SplitUnderP(x: char)
    requires x != '/'
    ensures Split(['/', 'p', '/', x], '/') == ["", "p", [x]]
  {
    SplitLeaf(x, '/');
    SplitSeparatorFirst('/', [x], '/');
    SplitCharFirst('p', ['/', x], '/', "", [[x]]);
    assert ['p'] + "" == "p";
    assert ['p', '/', x] == ['p'] + ['/', x];
    assert ['/', 'p', '/', x] == ['/'] + ['p', '/', x];
    SplitSeparatorFirst('/', ['p', '/', x], '/');
  }

  /** `'.jpg'` splits into `''` and `'jpg'`. */
  lemma SplitDotJpg()
    ensures Split(['.', 'j', 'p', 'g'], '.') == ["", "jpg"]
  {
    SplitLeaf('g', '.');
    SplitCharFirst('p', "g", '.', "g", []);
    assert ['p'] + "g" == "pg" && ['p', 'g'] == ['p'] + "g";
    SplitCharFirst('j', "pg", '.', "pg", []);
    assert ['j'] + "pg" == "jpg" && ['j', 'p', 'g'] == ['j'] + "pg";
    SplitSeparatorFirst('.', "jpg", '.');
    assert ['.', 'j', 'p', 'g'] == ['.'] + "jpg";
  }

  /** `d + '.jpg'` splits into `d` and `'jpg'`. */
  lemma SplitJpg(d: char)
    requires d != '.'
    ensures Split([d, '.', 'j', 'p', 'g'], '.') == [[d], "jpg"]
  {
    SplitDotJpg();
    SplitCharFirst(d, ".jpg", '.', "", ["jpg"]);
    assert [d] + "" == [d];
    assert [d, '.', 'j', 'p', 'g'] == [d] + ".jpg";
  }


  /** With monthly naming, a folder `/p/a` with no monthly-looking component is filed under the
      root-most component `""` of its absolute path, where the help text promises `"a"`. */
  lemma AsWrittenMonthlyFallback()
    ensures LA.TargetName("/p/a", true) == ""
    ensures TargetName("/p/a", true) == "a"
  {
    SplitUnderP('a');
    var parts := Split("/p/a", '/');
    assert !LA.IsMonthlyName(parts[2]) && !LA.IsMonthlyName(parts[1]);
    assert LA.MonthlyIndex(parts) == 0;
  }

  /** `d + '.jpg'` is a photo name, kept by the media filter. */
  lemma JpgIsMedia(d: char)
    requires d != '.'
    ensures MediaFilter.FilterMediaItems([[d, '.', 'j', 'p', 'g']]) == [[d, '.', 'j', 'p', 'g']]
  {
    var n := [d, '.', 'j', 'p', 'g'];
    SplitJpg(d);
    assert MediaFilter.Extension(n) == "jpg";
    assert Upper("jpg") == "JPG";
    assert MediaFilter.IsPhoto(n) && !MediaFilter.IsVideo(n);
    assert [n][1..] == [];
  }

  /** `'/p/' + x` passes the prefix test for root `/p` and the empty prefix. */
  lemma UnderPMatches(x: char, fs: seq<string>)
    ensures LA.PrefixMatches("/p", "", LA.DirEntry(['/', 'p', '/', x], fs))
  {
    assert "/p" + "/" + "" == "/p/";
    assert OccursAt(['/', 'p', '/', x], "/p/", 0);
  }

  /** `'/p/' + x` is filed under `""` by the monthly search as written. */
  lemma UnderPTarget(x: char)
    requires x != '/' && x != '-'
    ensures LA.TargetName(['/', 'p', '/', x], true) == ""
  {
    SplitUnderP(x);
    assert LA.MonthlyIndex(Split(['/', 'p', '/', x], '/')) == 0;
  }

  lemma EmptyNameFirstStep(root: string, e: LA.DirEntry, f: string)
    requires LA.PrefixMatches(root, "", e)
    requires MediaFilter.FilterMediaItems(e.filenames) == [f]
    requires LA.TargetName(e.dirpath, true) == ""
    ensures LA.Step(LA.NoAlbums, root, true, "", e) == LA.Albums([""], map["" := LA.Records("", e.dirpath, [f])])
  {
    assert LA.FirstContained([], e.dirpath) == None;
  }

  lemma EmptyNameLaterStep(root: string, a: LA.Albums, e: LA.DirEntry, f: string)
    requires LA.Valid(a) && a.names == [""]
    requires LA.PrefixMatches(root, "", e)
    requires MediaFilter.FilterMediaItems(e.filenames) == [f]
    requires LA.TargetName(e.dirpath, true) == ""
    ensures LA.Step(a, root, true, "", e) == LA.Albums([""], map["" := LA.Records("", e.dirpath, [f])])
  {
    FoundEmptyName(e.dirpath);
    var recs := LA.Records("", e.dirpath, [f]);
    assert LA.Step(a, root, true, "", e) == LA.Albums(a.names, a.files["" := recs]);
    OnlyEmptyName(a, recs);
  }

  /** The empty album name is contained in every path. */
  lemma FoundEmptyName(d: string)
    ensures LA.FirstContained([""], d) == Some("")
  {
    assert OccursAt(d, "", 0);
  }

  /** Replacing the list of the only album, the empty-named one. */
  lemma OnlyEmptyName(a: LA.Albums, recs: seq<LA.LocalFile>)
    requires LA.Valid(a) && a.names == [""]
    ensures a.files["" := recs] == map["" := recs]
  {
    assert a.files.Keys == {""};
  }

  lemma EmptyAlbumRecord(d: string, f: string)
    ensures LA.Records("", d, [f]) == [LA.LocalFile("_" + f, d + "/" + f)]
  {
    assert "" + "_" == "_";
  }

  /** A two-directory walk is two steps. */
  lemma WalkPair(a: LA.Albums, root: string, monthly: bool, prefix: string, e1: LA.DirEntry, e2: LA.DirEntry)
    requires LA.Valid(a)
    ensures LA.Walk(a, root, monthly, prefix, [e1, e2])
         == LA.Step(LA.Step(a, root, monthly, prefix, e1), root, monthly, prefix, e2)
  {
    var a1 := LA.Step(a, root, monthly, prefix, e1);
    var a2 := LA.Step(a1, root, monthly, prefix, e2);
    assert [e1, e2][1..] == [e2];
    assert LA.Walk(a, root, monthly, prefix, [e1, e2]) == LA.Walk(a1, root, monthly, prefix, [e2]);
    assert [e2][1..] == [];
    assert LA.Walk(a1, root, monthly, prefix, [e2]) == LA.Walk(a2, root, monthly, prefix, []);
  }

  lemma MediaCountPair(root: string, e1: LA.DirEntry, e2: LA.DirEntry)
    requires LA.PrefixMatches(root, "", e1) && LA.PrefixMatches(root, "", e2)
    requires |MediaFilter.FilterMediaItems(e1.filenames)| == 1 && |MediaFilter.FilterMediaItems(e2.filenames)| == 1
    ensures MediaCount(root, "", [e1, e2]) == 2
  {
    assert [e1, e2][1..] == [e2];
    assert [e2][1..] == [];
    assert MediaCount(root, "", []) == 0;
    assert MediaCount(root, "", [e2]) == 1;
  }

  /** Any two directories that contribute one media file each and whose computed album name is
      `""`: the first creates album `""`, the second finds `""` first, treats it as "no album"
      (it is falsy), recomputes `""` and resets it, so only the second file survives. */
  lemma EmptyNameResetScenario(root: string, e1: LA.DirEntry, e2: LA.DirEntry, f1: string, f2: string)
    requires LA.PrefixMatches(root, "", e1) && LA.PrefixMatches(root, "", e2)
    requires MediaFilter.FilterMediaItems(e1.filenames) == [f1]
    requires MediaFilter.FilterMediaItems(e2.filenames) == [f2]
    requires LA.TargetName(e1.dirpath, true) == "" && LA.TargetName(e2.dirpath, true) == ""
    ensures LA.GetLocalAlbums(root, true, Some(""), [e1, e2])
         == Success(LA.Albums([""], map["" := [LA.LocalFile("_" + f2, e2.dirpath + "/" + f2)]]))
    ensures MediaCount(root, "", [e1, e2]) == 2
  {
    EmptyNameFirstStep(root, e1, f1);
    var a1 := LA.Step(LA.NoAlbums, root, true, "", e1);
    EmptyNameLaterStep(root, a1, e2, f2);
    EmptyAlbumRecord(e2.dirpath, f2);
    WalkPair(LA.NoAlbums, root, true, "", e1, e2);
    MediaCountPair(root, e1, e2);
  }

  /** The photo name `d.jpg`. */
  function Jpg(d: char): string
  {
    [d, '.', 'j', 'p', 'g']
  }

  /** The folder `/p/x` holding the single photo `d.jpg`. */
  function PhotoFolder(x: char, d: char): LA.DirEntry
  {
    LA.DirEntry(['/', 'p', '/', x], [Jpg(d)])
  }

  /** Under root `/p` and the empty prefix, such a folder contributes its photo and is filed
      under `""` by the monthly search as written. */
  lemma PhotoFolderFacts(x: char, d: char)
    requires x != '/' && x != '-' && d != '.'
    ensures LA.PrefixMatches("/p", "", PhotoFolder(x, d))
    ensures MediaFilter.FilterMediaItems(PhotoFolder(x, d).filenames) == [Jpg(d)]
    ensures LA.TargetName(PhotoFolder(x, d).dirpath, true) == ""
  {
    JpgIsMedia(d);
    UnderPMatches(x, [Jpg(d)]);
    UnderPTarget(x);
  }

  /** Two sibling folders `/p/x` and `/p/y` (single-character names other than `/` and `-`)
      under the absolute root `/p`, with one photo `d.jpg` / `e.jpg` each: the scan as written,
      with monthly naming and the empty prefix, keeps only the record `_e.jpg` of the second
      photo although the walk holds two (the intended scan keeps both, by `WalkLosesNothing`). */
  lemma AsWrittenResetDropsFiles(x: char, y: char, d: char, e: char)
    requires x != '/' && x != '-' && y != '/' && y != '-' && d != '.' && e != '.'
    ensures LA.GetLocalAlbums("/p", true, Some(""), [PhotoFolder(x, d), PhotoFolder(y, e)])
         == Success(LA.Albums([""], map["" := [LA.LocalFile("_" + Jpg(e), PhotoFolder(y, e).dirpath + "/" + Jpg(e))]]))
    ensures MediaCount("/p", "", [PhotoFolder(x, d), PhotoFolder(y, e)]) == 2
  {
    PhotoFolderFacts(x, d);
    PhotoFolderFacts(y, e);
    EmptyNameResetScenario("/p", PhotoFolder(x, d), PhotoFolder(y, e), Jpg(d), Jpg(e));
  }

  // ---------------------------------------------------------------------------
  // Record names, on small walks

  /** The folder `/p/` + `rest` holding the files `names`. */
  function UnderP(rest: string, names: seq<string>): LA.DirEntry
  {
    LA.DirEntry("/p/" + rest, names)
  }

  /** `'/p/' + leaf` splits into `""`, `"p"` and the leaf when the leaf holds no `/`. */
  lemma SplitUnderPLeaf(leaf: string)
    requires '/' !in leaf
    ensures Split("/p/" + leaf, '/') == ["", "p", leaf]
  {
    SplitFree(leaf, '/');
    SplitAtFirst("p", leaf, '/');
    SplitAtFirst("", "p/" + leaf, '/');
    assert "/p/" + leaf == "" + ['/'] + ("p" + ['/'] + leaf);
    assert "p/" + leaf == "p" + ['/'] + leaf;
  }

  lemma ExtensionJpg(base: string)
    requires '.' !in base
    ensures MediaFilter.Extension(base + ".jpg") == "jpg"
  {
    SplitFree("jpg", '.');
    SplitAtFirst(base, "jpg", '.');
    assert base + ".jpg" == base + ['.'] + "jpg";
  }

  /** A name `base + ".jpg"` whose base holds no dot is kept by the media filter. */
  lemma MediaJpg(base: string)
    requires '.' !in base
    ensures MediaFilter.FilterMediaItems([base + ".jpg"]) == [base + ".jpg"]
  {
    var n := base + ".jpg";
    ExtensionJpg(base);
    assert Upper("jpg") == "JPG";
    assert MediaFilter.IsPhoto(n) && !MediaFilter.IsVideo(n);
    assert [n][1..] == [];
  }

  /** Every folder under `/p` passes the prefix test for root `/p` and the empty prefix. */
  lemma UnderPPasses(rest: string, names: seq<string>)
    ensures LA.PrefixMatches("/p", "", UnderP(rest, names))
  {
    assert "/p" + "/" + "" == "/p/";
    assert OccursAt("/p/" + rest, "/p/", 0);
  }

  /** The first directory of a walk, a leaf folder holding one media file, creates the album
      named after the leaf in both scans when monthly naming is off. */
  lemma LeafFirstStep(leaf: string, f: string)
    requires '/' !in leaf && MediaFilter.FilterMediaItems([f]) == [f]
    ensures LA.Step(LA.NoAlbums, "/p", false, "", UnderP(leaf, [f]))
         == LA.Albums([leaf], map[leaf := LA.Records(leaf, "/p/" + leaf, [f])])
  {
    UnderPPasses(leaf, [f]);
    SplitUnderPLeaf(leaf);
    assert LA.FirstContained([], "/p/" + leaf) == None;
  }

  lemma IntendedLeafFirstStep(leaf: string, f: string)
    requires '/' !in leaf && MediaFilter.FilterMediaItems([f]) == [f]
    ensures Step(LA.NoAlbums, "/p", false, "", UnderP(leaf, [f]))
         == LA.Albums([leaf], map[leaf := Records(leaf, "/p/" + leaf, [f])])
  {
    UnderPPasses(leaf, [f]);
    SplitUnderPLeaf(leaf);
    assert LA.FirstContained([], "/p/" + leaf) == None;
  }

  /** A folder nested in `/p/x` joins album `x` in both scans. */
  lemma NestedSecondStep(a: LA.Albums, x: char, q: char, f: string)
    requires LA.Valid(a) && a.names == [[x]] && MediaFilter.FilterMediaItems([f]) == [f]
    ensures LA.Step(a, "/p", false, "", UnderP([x, '/', q], [f]))
         == LA.Albums([[x]], a.files[[x] := a.files[[x]] + LA.Records([x], "/p/" + [x, '/', q], [f])])
  {
    UnderPPasses([x, '/', q], [f]);
    NestedFindsParent(x, q);
  }

  lemma IntendedNestedSecondStep(a: LA.Albums, x: char, q: char, f: string)
    requires LA.Valid(a) && a.names == [[x]] && MediaFilter.FilterMediaItems([f]) == [f]
    ensures Step(a, "/p", false, "", UnderP([x, '/', q], [f]))
         == LA.Albums([[x]], a.files[[x] := a.files[[x]] + Records([x], "/p/" + [x, '/', q], [f])])
  {
    UnderPPasses([x, '/', q], [f]);
    NestedFindsParent(x, q);
  }

  /** `x` occurs in `/p/x/q`. */
  lemma NestedFindsParent(x: char, q: char)
    ensures LA.FirstContained([[x]], "/p/" + [x, '/', q]) == Some([x])
  {
    assert OccursAt("/p/" + [x, '/', q], [x], 3);
  }

  /** Without monthly naming both scans name a folder `/p/` + leaf after the leaf. */
  lemma LeafTargets(leaf: string)
    requires '/' !in leaf
    ensures LA.TargetName("/p/" + leaf, false) == leaf && TargetName("/p/" + leaf, false) == leaf
  {
    SplitUnderPLeaf(leaf);
  }

  /** `x_y` does not occur in `/p/x`. */
  lemma LongerSiblingAbsent(x: char, y: char)
    ensures LA.FirstContained([[x, '_', y]], "/p/" + [x]) == None
  {
    var dir, n := "/p/" + [x], [x, '_', y];
    forall k | 0 <= k <= |dir|
      ensures !OccursAt(dir, n, k)
    {
      if k + |n| <= |dir| {
        assert dir[k .. k + |n|][1] == dir[k + 1] != '_';
      }
    }
  }

  /** Folder `/p/x`, walked after folder `/p/x_y`, gets an album of its own in both scans. */
  lemma SiblingSecondStep(a: LA.Albums, x: char, y: char, f: string)
    requires LA.Valid(a) && a.names == [[x, '_', y]] && x != '/' && MediaFilter.FilterMediaItems([f]) == [f]
    ensures LA.Step(a, "/p", false, "", UnderP([x], [f]))
         == LA.Albums([[x, '_', y], [x]], a.files[[x] := LA.Records([x], "/p/" + [x], [f])])
  {
    UnderPPasses([x], [f]);
    LeafTargets([x]);
    LongerSiblingAbsent(x, y);
    assert [x] != [x, '_', y];
  }

  lemma IntendedSiblingSecondStep(a: LA.Albums, x: char, y: char, f: string)
    requires LA.Valid(a) && a.names == [[x, '_', y]] && x != '/' && MediaFilter.FilterMediaItems([f]) == [f]
    ensures Step(a, "/p", false, "", UnderP([x], [f]))
         == LA.Albums([[x, '_', y], [x]], a.files[[x] := Records([x], "/p/" + [x], [f])])
  {
    UnderPPasses([x], [f]);
    LeafTargets([x]);
    LongerSiblingAbsent(x, y);
    assert [x] != [x, '_', y];
  }

  /** A two-directory walk is two steps of the intended scan. */
  lemma IntendedWalkPair(root: string, monthly: bool, prefix: string, e1: LA.DirEntry, e2: LA.DirEntry)
    ensures GetLocalAlbums(root, monthly, Some(prefix), [e1, e2])
         == Step(Step(LA.NoAlbums, root, monthly, prefix, e1), root, monthly, prefix, e2)
  {
    var a1 := Step(LA.NoAlbums, root, monthly, prefix, e1);
    var a2 := Step(a1, root, monthly, prefix, e2);
    assert [e1, e2][1..] == [e2];
    assert Walk(LA.NoAlbums, root, monthly, prefix, [e1, e2]) == Walk(a1, root, monthly, prefix, [e2]);
    assert [e2][1..] == [];
    assert Walk(a1, root, monthly, prefix, [e2]) == Walk(a2, root, monthly, prefix, []);
  }

  /** Both scans over a media file `f` in `/p/x` followed by the same name in `/p/x/q`. */
  lemma NestedAsWritten(x: char, q: char, f: string)
    requires x != '/' && MediaFilter.FilterMediaItems([f]) == [f]
    ensures LA.GetLocalAlbums("/p", false, Some(""), [UnderP([x], [f]), UnderP([x, '/', q], [f])])
         == Success(LA.Albums([[x]], map[[x] := LA.Records([x], "/p/" + [x], [f]) + LA.Records([x], "/p/" + [x, '/', q], [f])]))
  {
    var outer, inner := UnderP([x], [f]), UnderP([x, '/', q], [f]);
    var r1, r2 := LA.Records([x], "/p/" + [x], [f]), LA.Records([x], "/p/" + [x, '/', q], [f]);
    LeafFirstStep([x], f);
    var a1 := LA.Step(LA.NoAlbums, "/p", false, "", outer);
    NestedSecondStep(a1, x, q, f);
    assert a1.files[[x] := a1.files[[x]] + r2] == map[[x] := r1 + r2];
    WalkPair(LA.NoAlbums, "/p", false, "", outer, inner);
  }

  lemma NestedIntended(x: char, q: char, f: string)
    requires x != '/' && MediaFilter.FilterMediaItems([f]) == [f]
    ensures GetLocalAlbums("/p", false, Some(""), [UnderP([x], [f]), UnderP([x, '/', q], [f])])
         == LA.Albums([[x]], map[[x] := Records([x], "/p/" + [x], [f]) + Records([x], "/p/" + [x, '/', q], [f])])
  {
    var outer, inner := UnderP([x], [f]), UnderP([x, '/', q], [f]);
    var r1, r2 := Records([x], "/p/" + [x], [f]), Records([x], "/p/" + [x, '/', q], [f]);
    IntendedLeafFirstStep([x], f);
    var a1 := Step(LA.NoAlbums, "/p", false, "", outer);
    IntendedNestedSecondStep(a1, x, q, f);
    assert a1.files[[x] := a1.files[[x]] + r2] == map[[x] := r1 + r2];
    IntendedWalkPair("/p", false, "", outer, inner);
  }

  /** Two nested folders `/p/x` and `/p/x/q`, each holding a photo `d.jpg`: without monthly
      naming both scans file the two photos under album `x` with one and the same name, because
      a sub-folder joins the album whose name its path contains (lines 103-106). */
  lemma NestedFoldersShareName(x: char, q: char, d: char)
    requires x != '/' && d != '.'
    ensures LA.GetLocalAlbums("/p", false, Some(""), [UnderP([x], [Jpg(d)]), UnderP([x, '/', q], [Jpg(d)])])
         == Success(LA.Albums([[x]], map[[x] := LA.Records([x], "/p/" + [x], [Jpg(d)])
                                                + LA.Records([x], "/p/" + [x, '/', q], [Jpg(d)])]))
    ensures GetLocalAlbums("/p", false, Some(""), [UnderP([x], [Jpg(d)]), UnderP([x, '/', q], [Jpg(d)])])
         == LA.Albums([[x]], map[[x] := Records([x], "/p/" + [x], [Jpg(d)]) + Records([x], "/p/" + [x, '/', q], [Jpg(d)])])
    ensures LA.Records([x], "/p/" + [x], [Jpg(d)])[0].filename == LA.Records([x], "/p/" + [x, '/', q], [Jpg(d)])[0].filename
    ensures Records([x], "/p/" + [x], [Jpg(d)])[0].filename == Records([x], "/p/" + [x, '/', q], [Jpg(d)])[0].filename
  {
    JpgIsMedia(d);
    NestedAsWritten(x, q, Jpg(d));
    NestedIntended(x, q, Jpg(d));
  }

  /** Both scans over a media file `f1` in `/p/x_y` followed by a media file `f2` in `/p/x`. */
  lemma SiblingsAsWritten(x: char, y: char, f1: string, f2: string)
    requires x != '/' && y != '/'
    requires MediaFilter.FilterMediaItems([f1]) == [f1] && MediaFilter.FilterMediaItems([f2]) == [f2]
    ensures LA.GetLocalAlbums("/p", false, Some(""), [UnderP([x, '_', y], [f1]), UnderP([x], [f2])])
         == Success(LA.Albums([[x, '_', y], [x]],
                              map[[x, '_', y] := LA.Records([x, '_', y], "/p/" + [x, '_', y], [f1]),
                                  [x] := LA.Records([x], "/p/" + [x], [f2])]))
  {
    var first, second := UnderP([x, '_', y], [f1]), UnderP([x], [f2]);
    var r1, r2 := LA.Records([x, '_', y], "/p/" + [x, '_', y], [f1]), LA.Records([x], "/p/" + [x], [f2]);
    LeafFirstStep([x, '_', y], f1);
    var a1 := LA.Step(LA.NoAlbums, "/p", false, "", first);
    SiblingSecondStep(a1, x, y, f2);
    assert a1.files[[x] := r2] == map[[x, '_', y] := r1, [x] := r2];
    WalkPair(LA.NoAlbums, "/p", false, "", first, second);
  }

  lemma SiblingsIntended(x: char, y: char, f1: string, f2: string)
    requires x != '/' && y != '/'
    requires MediaFilter.FilterMediaItems([f1]) == [f1] && MediaFilter.FilterMediaItems([f2]) == [f2]
    ensures GetLocalAlbums("/p", false, Some(""), [UnderP([x, '_', y], [f1]), UnderP([x], [f2])])
         == LA.Albums([[x, '_', y], [x]],
                      map[[x, '_', y] := Records([x, '_', y], "/p/" + [x, '_', y], [f1]),
                          [x] := Records([x], "/p/" + [x], [f2])])
  {
    var first, second := UnderP([x, '_', y], [f1]), UnderP([x], [f2]);
    var r1, r2 := Records([x, '_', y], "/p/" + [x, '_', y], [f1]), Records([x], "/p/" + [x], [f2]);
    IntendedLeafFirstStep([x, '_', y], f1);
    var a1 := Step(LA.NoAlbums, "/p", false, "", first);
    IntendedSiblingSecondStep(a1, x, y, f2);
    assert a1.files[[x] := r2] == map[[x, '_', y] := r1, [x] := r2];
    IntendedWalkPair("/p", false, "", first, second);
  }

  /** The names built at lines 116-117 are not unique across albums: a photo `y_d.jpg` in folder
      `/p/x`, walked after a photo `d.jpg` in folder `/p/x_y`, goes to album `x` under the name
      `x_y_d.jpg` that the other photo already carries in album `x_y`. */
  lemma AsWrittenNameCollision(x: char, y: char, d: char)
    requires x != '/' && y != '/' && y != '.' && d != '.'
    ensures LA.GetLocalAlbums("/p", false, Some(""), [UnderP([x, '_', y], [Jpg(d)]), UnderP([x], [[y, '_'] + Jpg(d)])])
         == Success(LA.Albums([[x, '_', y], [x]],
                              map[[x, '_', y] := LA.Records([x, '_', y], "/p/" + [x, '_', y], [Jpg(d)]),
                                  [x] := LA.Records([x], "/p/" + [x], [[y, '_'] + Jpg(d)])]))
    ensures LA.Records([x, '_', y], "/p/" + [x, '_', y], [Jpg(d)])[0].filename
         == LA.Records([x], "/p/" + [x], [[y, '_'] + Jpg(d)])[0].filename
  {
    SiblingPhotos(y, d);
    SiblingsAsWritten(x, y, Jpg(d), [y, '_'] + Jpg(d));
    NamesCollide(x, y, d);
  }

  /** On the same walk the intended scan names the two photos `x_y/d.jpg` and `x/y_d.jpg`. */
  lemma IntendedNamesSeparate(x: char, y: char, d: char)
    requires x != '/' && y != '/' && y != '.' && d != '.'
    ensures GetLocalAlbums("/p", false, Some(""), [UnderP([x, '_', y], [Jpg(d)]), UnderP([x], [[y, '_'] + Jpg(d)])])
         == LA.Albums([[x, '_', y], [x]],
                      map[[x, '_', y] := Records([x, '_', y], "/p/" + [x, '_', y], [Jpg(d)]),
                          [x] := Records([x], "/p/" + [x], [[y, '_'] + Jpg(d)])])
    ensures Records([x, '_', y], "/p/" + [x, '_', y], [Jpg(d)])[0].filename
         != Records([x], "/p/" + [x], [[y, '_'] + Jpg(d)])[0].filename
  {
    SiblingPhotos(y, d);
    SiblingsIntended(x, y, Jpg(d), [y, '_'] + Jpg(d));
    NamesDiffer(x, y, d);
  }

  lemma NamesDiffer(x: char, y: char, d: char)
    requires x != '/' && y != '/'
    ensures Records([x, '_', y], "/p/" + [x, '_', y], [Jpg(d)])[0].filename
         != Records([x], "/p/" + [x], [[y, '_'] + Jpg(d)])[0].filename
  {
    RecordsNamedUnder([x, '_', y], "/p/" + [x, '_', y], [Jpg(d)]);
    RecordsNamedUnder([x], "/p/" + [x], [[y, '_'] + Jpg(d)]);
    NamesUnderDistinctAlbums([x, '_', y], Records([x, '_', y], "/p/" + [x, '_', y], [Jpg(d)])[0].filename,
                             [x], Records([x], "/p/" + [x], [[y, '_'] + Jpg(d)])[0].filename);
  }

  lemma NamesCollide(x: char, y: char, d: char)
    ensures LA.Records([x, '_', y], "/p/" + [x, '_', y], [Jpg(d)])[0].filename
         == LA.Records([x], "/p/" + [x], [[y, '_'] + Jpg(d)])[0].filename
  {
    assert [x, '_', y] + "_" + Jpg(d) == [x] + "_" + ([y, '_'] + Jpg(d));
  }

  /** `d.jpg` and `y_d.jpg` are both kept by the media filter. */
  lemma SiblingPhotos(y: char, d: char)
    requires y != '.' && d != '.'
    ensures MediaFilter.FilterMediaItems([Jpg(d)]) == [Jpg(d)]
    ensures MediaFilter.FilterMediaItems([[y, '_'] + Jpg(d)]) == [[y, '_'] + Jpg(d)]
  {
    JpgIsMedia(d);
    PrefixedJpgIsMedia(y, d);
  }

  lemma PrefixedJpgIsMedia(y: char, d: char)
    requires y != '.' && d != '.'
    ensures MediaFilter.FilterMediaItems([[y, '_'] + Jpg(d)]) == [[y, '_'] + Jpg(d)]
  {
    assert [y, '_'] + Jpg(d) == [y, '_', d] + ".jpg";
    MediaJpg([y, '_', d]);
  }
}

=== FILE: local_albums.dfy ===
/** The local scan (`get_local_albums`): turns the directory walk into an insertion-ordered
    mapping from album name to the media files that belong to it. The walk itself
    (`os.walk`) is an input: the sequence of directories with the names of their files. */
module LocalAlbums {
  import opened Wrappers
  import opened Strings
  import Seqs
  import MediaFilter

  /** One directory produced by the walk: its path and the names of the files it holds. */
  datatype DirEntry = DirEntry(dirpath: string, filenames: seq<string>)

  /** A file to sync: `filename` is the album-prefixed logical name, `filepath` the local path. */
  datatype LocalFile = LocalFile(filename: string, filepath: string)

  /** A Python dict from album name to files: `names` is the key insertion order. */
  datatype Albums = Albums(names: seq<string>, files: map<string, seq<LocalFile>>)

  /** The walk was non-empty but no folder prefix was given (`'/' + None` raises). */
  datatype ScanError = MissingPrefix

  /** The keys are distinct and are exactly the keys of the map. */
  ghost predicate Valid(a: Albums)
  {
    && (forall i, j :: 0 <= i < j < |a.names| ==> a.names[i] != a.names[j])
    && (forall n :: n in a.files <==> n in a.names)
  }

  const NoAlbums: Albums := Albums([], map[])

  /** `re.match(r"\d{4}-\d{0,2}", s)` succeeds: four digits then a dash at the start
      (zero further digits always satisfy `\d{0,2}`). */
  predicate IsMonthlyName(s: string)
  {
    |s| >= 5 && IsDigit(s[0]) && IsDigit(s[1]) && IsDigit(s[2]) && IsDigit(s[3]) && s[4] == '-'
  }

  /** The loop over `reversed(dirpath.split('/'))`: stops at the deepest component that
      looks monthly, or runs out at the root-most component. */
  function MonthlyIndex(parts: seq<string>): (k: nat)
    requires |parts| >= 1
    ensures k < |parts|
    ensures IsMonthlyName(parts[k]) || k == 0
    ensures forall j :: k < j < |parts| ==> !IsMonthlyName(parts[j])
  {
    var last := |parts| - 1;
    if IsMonthlyName(parts[last]) || last == 0 then last else MonthlyIndex(parts[..last])
  }

  /** Component `k` is where the leaf-to-root search of lines 109-112 stops: it looks monthly
      (or is the root-most component) and no deeper component does. */
  ghost predicate DeepestMonthly(parts: seq<string>, k: nat)
  {
    && k < |parts|
    && (IsMonthlyName(parts[k]) || k == 0)
    && forall j :: k < j < |parts| ==> !IsMonthlyName(parts[j])
  }

  /** The album name computed for a directory that joins no known album (lines 108-114). */
  function TargetName(dirpath: string, monthly: bool): (t: string)
    ensures Contains(dirpath, t)
    ensures monthly ==> exists k: nat :: DeepestMonthly(Split(dirpath, '/'), k) && t == Split(dirpath, '/')[k]
    ensures !monthly ==> t == Split(dirpath, '/')[|Split(dirpath, '/')| - 1]
  {
    SplitPiecesOccur(dirpath, '/');
    var parts := Split(dirpath, '/');
    if monthly then
      var k := MonthlyIndex(parts);
      assert DeepestMonthly(parts, k);
      parts[k]
    else parts[|parts| - 1]
  }

  /** The records appended for the media files `media` of `dirpath` under album `album`. */
  function Records(album: string, dirpath: string, media: seq<string>): seq<LocalFile>
  {
    seq(|media|, i requires 0 <= i < |media| => LocalFile(album + "_" + media[i], dirpath + "/" + media[i]))
  }

  function ContainedIn(dirpath: string): string -> bool
  {
    n => Contains(dirpath, n)
  }

  /** Lines 103-106: the first known album, in insertion order, whose name is a substring of the path. */
  function FirstContained(names: seq<string>, dirpath: string): (r: Option<string>)
    ensures r.Some? ==> exists i :: 0 <= i < |names| && names[i] == r.value && Contains(dirpath, r.value)
                          && forall j :: 0 <= j < i ==> !Contains(dirpath, names[j])
    ensures r.None? <==> forall i :: 0 <= i < |names| ==> !Contains(dirpath, names[i])
  {
    match Seqs.FirstIndex(names, ContainedIn(dirpath))
    case None => None
    case Some(i) => Some(names[i])
  }

  /** The walk entry passes the folder-prefix test of line 96. */
  predicate PrefixMatches(root: string, prefix: string, e: DirEntry)
  {
    Contains(e.dirpath, root + "/" + prefix)
  }

  /** The walk entry passes both skips (lines 96 and 99). */
  predicate Contributes(root: string, prefix: string, e: DirEntry)
  {
    PrefixMatches(root, prefix, e) && |MediaFilter.FilterMediaItems(e.filenames)| > 0
  }

  /** One iteration of the loop at line 95. */
  function Step(a: Albums, root: string, monthly: bool, prefix: string, e: DirEntry): (r: Albums)
    requires Valid(a)
    ensures Valid(r)
    ensures |a.names| <= |r.names| <= |a.names| + 1 && r.names[..|a.names|] == a.names
    ensures !Contributes(root, prefix, e) ==> r == a
  {
    if !PrefixMatches(root, prefix, e) then a
    else
      var media := MediaFilter.FilterMediaItems(e.filenames);
      if |media| == 0 then a
      else
        var found := FirstContained(a.names, e.dirpath);
        if found.Some? && found.value != "" then
          var k := found.value;
          Albums(a.names, a.files[k := a.files[k] + Records(k, e.dirpath, media)])
        else
          var t := TargetName(e.dirpath, monthly);
          var names := if t in a.files then a.names else a.names + [t];
          Albums(names, a.files[t := Records(t, e.dirpath, media)])
  }

  /** The whole loop at line 95, directory by directory in walk order. */
  function Walk(a: Albums, root: string, monthly: bool, prefix: string, walk: seq<DirEntry>): (r: Albums)
    requires Valid(a)
    ensures Valid(r)
    ensures |a.names| <= |r.names| && r.names[..|a.names|] == a.names
    decreases |walk|
  {
    if |walk| == 0 then a else Walk(Step(a, root, monthly, prefix, walk[0]), root, monthly, prefix, walk[1..])
  }

  /** `get_local_albums(root, monthly, prefix)`. */
  function GetLocalAlbums(root: string, monthly: bool, prefix: Option<string>, walk: seq<DirEntry>)
    : (r: Result<Albums, ScanError>)
    ensures r.Failure? <==> prefix.None? && |walk| > 0
    ensures r.Success? ==> Valid(r.value)
    ensures |walk| == 0 ==> r == Success(NoAlbums)
  {
    if |walk| == 0 then Success(NoAlbums)
    else if prefix.None? then Failure(MissingPrefix)
    else Success(Walk(NoAlbums, root, monthly, prefix.value, walk))
  }

  // ---------------------------------------------------------------------------
  // Properties of one step

  /** The walk's root itself never passes the prefix test: `root + '/' + prefix` is longer than `root`. */
  lemma RootNeverContributes(a: Albums, root: string, monthly: bool, prefix: string, filenames: seq<string>)
    requires Valid(a)
    ensures !PrefixMatches(root, prefix, DirEntry(root, filenames))
    ensures Step(a, root, monthly, prefix, DirEntry(root, filenames)) == a
  {
    var q := root + "/" + prefix;
    forall k: nat | k <= |root|
      ensures !OccursAt(root, q, k)
    {
      assert |q| > |root|;
    }
  }

  /** When the first known album contained in the path is a non-empty name, the directory's media
      files are appended to it, in filtered order, and no key is added or touched otherwise. */
  lemma StepJoinsKnownAlbum(a: Albums, root: string, monthly: bool, prefix: string, e: DirEntry, k: string)
    requires Valid(a) && Contributes(root, prefix, e)
    requires FirstContained(a.names, e.dirpath) == Some(k) && k != ""
    ensures k in a.files
    ensures Step(a, root, monthly, prefix, e).names == a.names
    ensures Step(a, root, monthly, prefix, e).files
         == a.files[k := a.files[k] + Records(k, e.dirpath, MediaFilter.FilterMediaItems(e.filenames))]
  {
  }

  /** When no known album is contained in the path, the computed name is a new key: it is appended
      to the insertion order and holds exactly this directory's records. */
  lemma StepCreatesAlbum(a: Albums, root: string, monthly: bool, prefix: string, e: DirEntry)
    requires Valid(a) && Contributes(root, prefix, e)
    requires FirstContained(a.names, e.dirpath).None?
    ensures var t := TargetName(e.dirpath, monthly);
      && t !in a.files
      && Step(a, root, monthly, prefix, e).names == a.names + [t]
      && Step(a, root, monthly, prefix, e).files == a.files[t := Records(t, e.dirpath, MediaFilter.FilterMediaItems(e.filenames))]
  {
  }

  /** The reset at line 115 can only discard records when the empty name is an album key:
      otherwise every album's list only grows. */
  lemma {:induction false} StepOnlyGrowsWithoutEmptyKey(a: Albums, root: string, monthly: bool, prefix: string, e: DirEntry)
    requires Valid(a) && "" !in a.files
    ensures forall k :: k in a.files ==>
              (k in Step(a, root, monthly, prefix, e).files && Seqs.IsPrefix(a.files[k], Step(a, root, monthly, prefix, e).files[k]))
  {
    if Contributes(root, prefix, e) {
      var found := FirstContained(a.names, e.dirpath);
      if found.None? {
        StepCreatesAlbum(a, root, monthly, prefix, e);
      } else {
        var i :| 0 <= i < |a.names| && a.names[i] == found.value;
        assert found.value != "";
      }
    }
  }

  // ---------------------------------------------------------------------------
  // Shape of the records

  /** A record stored under `album` is named `album + "_" + f` for a media file name `f`
      and its path ends in `"/" + f`. */
  predicate NamedAfter(album: string, rec: LocalFile)
  {
    && |rec.filename| > |album|
    && rec.filename[.. |album| + 1] == album + "_"
    && MediaFilter.IsMediaName(rec.filename[|album| + 1 ..])
    && EndsWith(rec.filepath, "/" + rec.filename[|album| + 1 ..])
  }

  ghost predicate AllNamedAfter(a: Albums)
  {
    forall k, i :: k in a.files && 0 <= i < |a.files[k]| ==> NamedAfter(k, a.files[k][i])
  }

  /** The record built at lines 116-117 for media file `f` is named after its album. */
  lemma RecordNamedAfter(album: string, dirpath: string, f: string)
    requires MediaFilter.IsMediaName(f)
    ensures NamedAfter(album, LocalFile(album + "_" + f, dirpath + "/" + f))
  {
    var name, path := album + "_" + f, dirpath + "/" + f;
    assert name[.. |album| + 1] == album + "_";
    assert name[|album| + 1 ..] == f;
    assert path[|path| - |"/" + f| ..] == "/" + f;
  }

  lemma RecordsNamedAfter(album: string, dirpath: string, media: seq<string>)
    requires forall i :: 0 <= i < |media| ==> MediaFilter.IsMediaName(media[i])
    ensures forall i :: 0 <= i < |media| ==> NamedAfter(album, Records(album, dirpath, media)[i])
  {
    forall i | 0 <= i < |media|
      ensures NamedAfter(album, Records(album, dirpath, media)[i])
    {
      RecordNamedAfter(album, dirpath, media[i]);
    }
  }

  /** Appending records named after `k` to a list of such records keeps them all named after `k`. */
  lemma NamedAfterAppend(k: string, list: seq<LocalFile>, added: seq<LocalFile>)
    requires forall i :: 0 <= i < |list| ==> NamedAfter(k, list[i])
    requires forall i :: 0 <= i < |added| ==> NamedAfter(k, added[i])
    ensures forall i :: 0 <= i < |list + added| ==> NamedAfter(k, (list + added)[i])
  {
    forall i | 0 <= i < |list + added|
      ensures NamedAfter(k, (list + added)[i])
    {
      if i >= |list| {
        assert (list + added)[i] == added[i - |list|];
      }
    }
  }

  /** Replacing one album's list by a list of records named after it keeps every record named
      after its album. */
  lemma NamedAfterUpdate(a: Albums, k: string, list: seq<LocalFile>, r: Albums)
    requires AllNamedAfter(a)
    requires forall i :: 0 <= i < |list| ==> NamedAfter(k, list[i])
    requires r.files == a.files[k := list]
    ensures AllNamedAfter(r)
  {
  }

  lemma StepNamedAfter(a: Albums, root: string, monthly: bool, prefix: string, e: DirEntry)
    requires Valid(a) && AllNamedAfter(a)
    ensures AllNamedAfter(Step(a, root, monthly, prefix, e))
  {
    if Contributes(root, prefix, e) {
      var media := MediaFilter.FilterMediaItems(e.filenames);
      var found := FirstContained(a.names, e.dirpath);
      var join := found.Some? && found.value != "";
      var k := if join then found.value else TargetName(e.dirpath, monthly);
      var added := Records(k, e.dirpath, media);
      RecordsNamedAfter(k, e.dirpath, media);
      var list := if join then a.files[k] + added else added;
      if join {
        NamedAfterAppend(k, a.files[k], added);
      }
      NamedAfterUpdate(a, k, list, Step(a, root, monthly, prefix, e));
    }
  }

  /** A walk keeps every stored record named after its album: under album `k` each record is
      named `k + "_" + f` for some media name `f`, and its path ends in `"/" + f`. */
  lemma {:induction false} WalkNamedAfter(a: Albums, root: string, monthly: bool, prefix: string, walk: seq<DirEntry>)
    requires Valid(a) && AllNamedAfter(a)
    ensures AllNamedAfter(Walk(a, root, monthly, prefix, walk))
    decreases |walk|
  {
    if |walk| > 0 {
      StepNamedAfter(a, root, monthly, prefix, walk[0]);
      WalkNamedAfter(Step(a, root, monthly, prefix, walk[0]), root, monthly, prefix, walk[1..]);
    }
  }

  lemma GetLocalAlbumsNamedAfter(root: string, monthly: bool, prefix: Option<string>, walk: seq<DirEntry>)
    requires GetLocalAlbums(root, monthly, prefix, walk).Success?
    ensures AllNamedAfter(GetLocalAlbums(root, monthly, prefix, walk).value)
  {
    if |walk| > 0 {
      WalkNamedAfter(NoAlbums, root, monthly, prefix.value, walk);
    }
  }

  /** The media file name a record stored under `album` was built from: what follows
      `album + "_"` in its name. */
  function OriginalName(album: string, rec: LocalFile): string
  {
    if |rec.filename| > |album| then rec.filename[|album| + 1 ..] else ""
  }

  /** Records named after two different albums and built from the same media file name have
      different names. */
  lemma DistinctAlbumsDistinctNames(k1: string, r1: LocalFile, k2: string, r2: LocalFile)
    requires NamedAfter(k1, r1) && NamedAfter(k2, r2)
    requires k1 != k2 && OriginalName(k1, r1) == OriginalName(k2, r2)
    ensures r1.filename != r2.filename
  {
    if |k1| == |k2| {
      assert r1.filename[..|k1|] == r1.filename[..|k1| + 1][..|k1|] == (k1 + "_")[..|k1|] == k1;
      assert r2.filename[..|k2|] == r2.filename[..|k2| + 1][..|k2|] == (k2 + "_")[..|k2|] == k2;
    } else {
      assert |r1.filename| == |k1| + 1 + |OriginalName(k1, r1)|;
      assert |r2.filename| == |k2| + 1 + |OriginalName(k2, r2)|;
    }
  }

  /** In every scan that succeeds, a record of one album and a record of another album built
      from the same media file name (the text after `album + "_"`, which is also the last
      component of both paths whenever walk file names hold no `/`) have different names.
      Two records of the same album can share a name: see `IntendedScan.NestedFoldersShareName`. */
  lemma GetLocalAlbumsSameFileDistinctNames(root: string, monthly: bool, prefix: Option<string>, walk: seq<DirEntry>)
    requires GetLocalAlbums(root, monthly, prefix, walk).Success?
    ensures var a := GetLocalAlbums(root, monthly, prefix, walk).value;
      forall k1, k2, i, j :: k1 in a.files && k2 in a.files && k1 != k2
        && 0 <= i < |a.files[k1]| && 0 <= j < |a.files[k2]|
        && OriginalName(k1, a.files[k1][i]) == OriginalName(k2, a.files[k2][j])
        ==> a.files[k1][i].filename != a.files[k2][j].filename
  {
    var a := GetLocalAlbums(root, monthly, prefix, walk).value;
    GetLocalAlbumsNamedAfter(root, monthly, prefix, walk);
    forall k1, k2, i, j | k1 in a.files && k2 in a.files && k1 != k2
        && 0 <= i < |a.files[k1]| && 0 <= j < |a.files[k2]|
        && OriginalName(k1, a.files[k1][i]) == OriginalName(k2, a.files[k2][j])
      ensures a.files[k1][i].filename != a.files[k2][j].filename
    {
      DistinctAlbumsDistinctNames(k1, a.files[k1][i], k2, a.files[k2][j]);
    }
  }

  /** Directories that do not pass the prefix test or hold no media leave the result unchanged. */
  lemma {:induction false} WalkSkipsNonContributing(a: Albums, root: string, monthly: bool, prefix: string, walk: seq<DirEntry>)
    requires Valid(a)
    requires forall i :: 0 <= i < |walk| ==> !Contributes(root, prefix, walk[i])
    ensures Walk(a, root, monthly, prefix, walk) == a
    decreases |walk|
  {
    if |walk| > 0 {
      assert !Contributes(root, prefix, walk[0]);
      WalkSkipsNonContributing(a, root, monthly, prefix, walk[1..]);
    }
  }
}

=== FILE: media_filter.dfy ===
/** Classification of file names as photos or videos by their extension
    (`filter_media_items`). */
module MediaFilter {
  import opened Strings
  import Seqs

  /** The upper-case extensions accepted as photos. */
  const PhotoTypes: seq<string> :=
    ["AVIF", "BMP", "GIF", "HEIC", "ICO", "JPG", "JPEG", "PNG", "TIFF", "WEBP"]

  /** The upper-case extensions accepted as videos. */
  const VideoTypes: seq<string> :=
    ["3GP", "3G2", "ASF", "AVI", "DIVX", "M2T", "M2TS", "M4V", "MKV", "MMV", "MOD", "MOV", "MP4", "MPG",
     "MTS", "TOD", "WMV"]

  /** `name.split('.')[-1]`: the text after the last dot, or the whole name when it has no dot. */
  function Extension(name: string): (e: string)
    ensures '.' !in e
    ensures |e| <= |name| && e == name[|name| - |e| ..]
    ensures |e| == |name| || name[|name| - |e| - 1] == '.'
  {
    SplitLast(name, '.');
    var parts := Split(name, '.');
    parts[|parts| - 1]
  }

  predicate IsPhoto(name: string)
  {
    Upper(Extension(name)) in PhotoTypes
  }

  predicate IsVideo(name: string)
  {
    Upper(Extension(name)) in VideoTypes
  }

  /** A name `filter_media_items` keeps: its upper-cased extension is a photo or a video type. */
  predicate IsMediaName(name: string)
  {
    IsPhoto(name) || IsVideo(name)
  }

  /** No extension is both a photo and a video type, so the two independent appends of
      `filter_media_items` never fire together. */
  lemma TypesDisjoint(e: string)
    ensures !(e in PhotoTypes && e in VideoTypes)
  {
  }

  /** What the two appends of lines 86-89 add for one name: the name once if it is a media name,
      nothing otherwise. */
  function AppendsFor(n: string): (r: seq<string>)
    ensures r == if IsMediaName(n) then [n] else []
  {
    TypesDisjoint(Upper(Extension(n)));
    (if IsPhoto(n) then [n] else []) + (if IsVideo(n) then [n] else [])
  }

  /** `filter_media_items`: walks the names in order, appending a name once if it is a photo
      and once (again) if it is a video. Because the lists are disjoint this is exactly the
      order-preserving filter by `IsMediaName`. */
  function FilterMediaItems(names: seq<string>): (r: seq<string>)
    ensures r == Seqs.Filter(IsMediaName, names)
  {
    if |names| == 0 then []
    else AppendsFor(names[0]) + FilterMediaItems(names[1..])
  }

  /** The filtered list is an order-preserving sub-sequence of the input. */
  lemma FilterMediaItemsOrdered(names: seq<string>)
    ensures Seqs.IsSubsequence(FilterMediaItems(names), names)
  {
    Seqs.FilterSpec(IsMediaName, names);
  }

  /** Every media name keeps each of its occurrences exactly once and every other name is
      dropped. */
  lemma FilterMediaItemsCounts(names: seq<string>)
    ensures forall n :: multiset(FilterMediaItems(names))[n] == (if IsMediaName(n) then multiset(names)[n] else 0)
  {
    Seqs.FilterSpec(IsMediaName, names);
  }

  /** A name is in the filtered list iff it is one of the input names and a media name. */
  lemma FilterMediaItemsMembers(names: seq<string>)
    ensures forall n :: n in FilterMediaItems(names) <==> n in names && IsMediaName(n)
  {
    Seqs.FilterMembers(IsMediaName, names);
  }
}

=== FILE: reconcile.dfy ===
/** The main loop of the sync (`main`, lines 208-223) and the part of `get_album_media_items`
    that decides what to upload and what to link (lines 133-146, 168-176): each local album is
    looked up or created, its files are split into catalogued and missing ones, the missing ones
    are uploaded and registered in batches of 50, and every id is then added to the album, again
    in batches of 50. The remote service is a parameter. */
module Reconcile {
  import opened Wrappers
  import Seqs
  import LA = LocalAlbums
  import opened Catalog

  /** The slice length used for both batch-create and batch-add requests (lines 168 and 221). */
  const BatchSize: nat := 50

  // ---------------------------------------------------------------------------
  // Partition of an album's files (lines 133-146)
  // ---------------------------------------------------------------------------

  /** Line 141: a local file is already in the catalog when the first catalog entry with its
      (album-qualified) file name carries a non-empty id; an empty id counts as missing. */
  predicate Present(items: seq<MediaItem>, f: LA.LocalFile)
  {
    var id := LookupMediaId(f.filename, items);
    id.Some? && id.value != ""
  }

  function PresentIn(items: seq<MediaItem>): LA.LocalFile -> bool
  {
    (f: LA.LocalFile) => Present(items, f)
  }

  function MissingFrom(items: seq<MediaItem>): LA.LocalFile -> bool
  {
    (f: LA.LocalFile) => !Present(items, f)
  }

  /** The id the catalog holds for a present file. */
  function CatalogId(items: seq<MediaItem>, f: LA.LocalFile): string
    requires Present(items, f)
  {
    LookupMediaId(f.filename, items).value
  }

  datatype Partition = Partition(mediaItemIds: seq<string>, needsUpload: seq<LA.LocalFile>)

  /** Lines 133-146: every local file, in order, contributes its catalog id or is queued for
      upload. */
  function PartitionFiles(items: seq<MediaItem>, files: seq<LA.LocalFile>): (r: Partition)
    ensures |r.mediaItemIds| + |r.needsUpload| == |files|
    ensures r.needsUpload == Seqs.Filter(MissingFrom(items), files)
    ensures |r.mediaItemIds| == |Seqs.Filter(PresentIn(items), files)|
    ensures forall i :: 0 <= i < |r.mediaItemIds| ==>
              r.mediaItemIds[i] == CatalogId(items, Seqs.Filter(PresentIn(items), files)[i])
    ensures forall i :: 0 <= i < |r.mediaItemIds| ==> r.mediaItemIds[i] != ""
  {
    if |files| == 0 then Partition([], [])
    else
      var rest := PartitionFiles(items, files[1..]);
      if Present(items, files[0]) then Partition([CatalogId(items, files[0])] + rest.mediaItemIds, rest.needsUpload)
      else Partition(rest.mediaItemIds, [files[0]] + rest.needsUpload)
  }

  /** A file is queued for upload exactly when it is one of the album's files and the catalog
      has no usable id for it; the queue keeps the album's order. */
  lemma PartitionSpec(items: seq<MediaItem>, files: seq<LA.LocalFile>)
    ensures Seqs.IsSubsequence(PartitionFiles(items, files).needsUpload, files)
    ensures forall f :: f in PartitionFiles(items, files).needsUpload <==> f in files && !Present(items, f)
  {
    var needs := PartitionFiles(items, files).needsUpload;
    Seqs.FilterSpec(MissingFrom(items), files);
    forall f
      ensures f in needs <==> f in files && !Present(items, f)
    {
      assert f in needs <==> multiset(needs)[f] > 0;
      assert f in files <==> multiset(files)[f] > 0;
    }
  }

  /** When every file is already catalogued nothing is queued and every file yields an id. */
  lemma NothingMissingNothingQueued(items: seq<MediaItem>, files: seq<LA.LocalFile>)
    requires forall i :: 0 <= i < |files| ==> Present(items, files[i])
    ensures PartitionFiles(items, files).needsUpload == []
    ensures |PartitionFiles(items, files).mediaItemIds| == |files|
  {
    PartitionSpec(items, files);
  }

  // ---------------------------------------------------------------------------
  // Upload and batch-create (lines 147-176)
  // ---------------------------------------------------------------------------

  /** One entry of a batch-create request: the upload token and the file name it is stored
      under. */
  datatype NewMediaItem = NewMediaItem(uploadToken: string, fileName: string)

  /** The remote calls the sync makes, as functions of their request: creating an album by
      title, uploading one file's bytes (giving an upload token), and registering a batch of
      uploads (one result per entry; a result without a media item is `None`). */
  datatype Service = Service(
    createAlbum: string -> RemoteAlbum,
    upload: LA.LocalFile -> string,
    batchCreate: seq<NewMediaItem> -> seq<Option<MediaItem>>)

  /** Line 172: a batch-create result without `mediaItem` raises `KeyError`, which ends the run. */
  datatype SyncError = MissingMediaItem

  /** Lines 149-166: one upload per queued file, in queue order. */
  function UploadTokens(svc: Service, needs: seq<LA.LocalFile>): seq<NewMediaItem>
  {
    seq(|needs|, i requires 0 <= i < |needs| => NewMediaItem(svc.upload(needs[i]), needs[i].filename))
  }

  /** The ids collected for an album so far and the catalog. */
  datatype Added = Added(ids: seq<string>, items: seq<MediaItem>)

  /** The media items a batch-create response carries, in result order. */
  function Returned(results: seq<Option<MediaItem>>): seq<MediaItem>
    decreases |results|
  {
    if |results| == 0 then []
    else (if results[0].Some? then [results[0].value] else []) + Returned(results[1..])
  }

  /** The ids of a run of media items. */
  function Ids(items: seq<MediaItem>): seq<string>
  {
    seq(|items|, i requires 0 <= i < |items| => items[i].id)
  }

  lemma IdsAppend(a: seq<MediaItem>, b: seq<MediaItem>)
    ensures Ids(a + b) == Ids(a) + Ids(b)
  {
  }

  /** When every result carries a media item, they are returned one for one. */
  lemma {:induction false} ReturnedAll(results: seq<Option<MediaItem>>)
    requires forall i :: 0 <= i < |results| ==> results[i].Some?
    ensures |Returned(results)| == |results|
    ensures forall i :: 0 <= i < |results| ==> Returned(results)[i] == results[i].value
    decreases |results|
  {
    if |results| > 0 {
      ReturnedAll(results[1..]);
      assert Returned(results) == [results[0].value] + Returned(results[1..]);
    }
  }

  /** Lines 171-176 for one batch-create response: each result's id is collected and its
      `{id, filename}` appended to the catalog, in result order. A result without a media item
      ends the pass. */
  function AppendResults(results: seq<Option<MediaItem>>, acc: Added): (r: Result<Added, SyncError>)
    ensures r.Success? <==> forall i :: 0 <= i < |results| ==> results[i].Some?
    ensures r.Success? ==> r.value.items == acc.items + Returned(results)
    ensures r.Success? ==> r.value.ids == acc.ids + Ids(Returned(results))
    decreases |results|
  {
    if |results| == 0 then Success(acc)
    else match results[0]
      case None => Failure(MissingMediaItem)
      case Some(m) =>
        var r := AppendResults(results[1..], Added(acc.ids + [m.id], acc.items + [MediaItem(m.id, m.filename)]));
        if r.Success? then
          IdsAppend([m], Returned(results[1..]));
          assert acc.items + [m] + Returned(results[1..]) == acc.items + Returned(results);
          r
        else r
  }

  /** Every batch-create response for `batches` answers each of its entries with a media item. */
  predicate AllAnswered(svc: Service, batches: seq<seq<NewMediaItem>>)
  {
    forall k, i :: 0 <= k < |batches| && 0 <= i < |svc.batchCreate(batches[k])| ==> svc.batchCreate(batches[k])[i].Some?
  }

  /** The media items returned for `batches`, batch after batch. */
  function Created(svc: Service, batches: seq<seq<NewMediaItem>>): seq<MediaItem>
    decreases |batches|
  {
    if |batches| == 0 then [] else Returned(svc.batchCreate(batches[0])) + Created(svc, batches[1..])
  }

  lemma AllAnsweredCons(svc: Service, batches: seq<seq<NewMediaItem>>)
    requires |batches| > 0
    ensures AllAnswered(svc, batches) <==>
      (forall i :: 0 <= i < |svc.batchCreate(batches[0])| ==> svc.batchCreate(batches[0])[i].Some?)
      && AllAnswered(svc, batches[1..])
  {
    if (forall i :: 0 <= i < |svc.batchCreate(batches[0])| ==> svc.batchCreate(batches[0])[i].Some?)
       && AllAnswered(svc, batches[1..]) {
      forall k, i | 0 <= k < |batches| && 0 <= i < |svc.batchCreate(batches[k])|
        ensures svc.batchCreate(batches[k])[i].Some?
      {
        if k > 0 {
          assert batches[k] == batches[1..][k - 1];
        }
      }
    }
  }

  /** Lines 168-176: one batch-create request per batch, in order. The pass fails exactly when
      some response lacks a media item; otherwise the ids and the catalog grow by exactly the
      returned items, batch after batch. */
  function CreateAll(svc: Service, batches: seq<seq<NewMediaItem>>, acc: Added): (r: Result<Added, SyncError>)
    ensures r.Success? <==> AllAnswered(svc, batches)
    ensures r.Success? ==> r.value.items == acc.items + Created(svc, batches)
    ensures r.Success? ==> r.value.ids == acc.ids + Ids(Created(svc, batches))
    decreases |batches|
  {
    if |batches| == 0 then Success(acc)
    else
      AllAnsweredCons(svc, batches);
      match AppendResults(svc.batchCreate(batches[0]), acc)
      case Failure(e) => Failure(e)
      case Success(next) =>
        var rest := CreateAll(svc, batches[1..], next);
        if rest.Success? then
          IdsAppend(Returned(svc.batchCreate(batches[0])), Created(svc, batches[1..]));
          assert rest.value.items == acc.items + Created(svc, batches);
          rest
        else rest
  }

  /** What `get_album_media_items` produced for one album: the ids to add, the catalog after
      the appends, the files uploaded and the batch-create requests issued. */
  datatype AlbumMedia = AlbumMedia(ids: seq<string>, items: seq<MediaItem>,
                                   uploaded: seq<LA.LocalFile>, createBatches: seq<seq<NewMediaItem>>)

  /** `get_album_media_items(service, local_files, media_items)`: the files without a usable
      catalog id are uploaded in album order and registered in batch-create requests that
      together carry exactly their upload tokens; the returned ids are the catalog ids of the
      present files followed by the ids of the created items, which are appended to the
      catalog. */
  function GetAlbumMediaItems(svc: Service, files: seq<LA.LocalFile>, items: seq<MediaItem>): (r: Result<AlbumMedia, SyncError>)
    ensures r.Success? <==> AllAnswered(svc, Seqs.SliceChunks(UploadTokens(svc, PartitionFiles(items, files).needsUpload), BatchSize, 0))
    ensures r.Success? ==> r.value.uploaded == PartitionFiles(items, files).needsUpload
    ensures r.Success? ==> forall f :: f in r.value.uploaded ==> f in files && !Present(items, f)
    ensures r.Success? ==> Seqs.Flatten(r.value.createBatches) == UploadTokens(svc, r.value.uploaded)
    ensures r.Success? ==> r.value.items == items + Created(svc, r.value.createBatches)
    ensures r.Success? ==> r.value.ids == PartitionFiles(items, files).mediaItemIds + Ids(Created(svc, r.value.createBatches))
    ensures r.Success? ==> Seqs.IsPrefix(items, r.value.items)
  {
    var p := PartitionFiles(items, files);
    var tokens := UploadTokens(svc, p.needsUpload);
    var batches := Seqs.SliceChunks(tokens, BatchSize, 0);
    match CreateAll(svc, batches, Added(p.mediaItemIds, items))
    case Failure(e) => Failure(e)
    case Success(a) =>
      PartitionSpec(items, files);
      Seqs.ChunksAreSlices(tokens, BatchSize, 0);
      assert tokens[0..] == tokens;
      assert a.items[..|items|] == items;
      Success(AlbumMedia(a.ids, a.items, p.needsUpload, batches))
  }

  // ---------------------------------------------------------------------------
  // Album add requests (lines 221-223)
  // ---------------------------------------------------------------------------

  /** One `batchAddMediaItems` request: the album and the de-duplicated ids of one batch. */
  datatype AddRequest = AddRequest(albumId: string, mediaItemIds: set<string>)

  /** `set(batch)`. */
  function ToSet(s: seq<string>): (r: set<string>)
    ensures forall x :: x in r <==> x in s
    ensures |r| <= |s|
    ensures |s| > 0 ==> |r| > 0
  {
    if |s| == 0 then {}
    else
      var rest := ToSet(s[1..]);
      if s[0] in rest then
        assert s == [s[0]] + s[1..];
        rest
      else
        assert s == [s[0]] + s[1..];
        {s[0]} + rest
  }

  /** Lines 221-223: one request per slice of 50 ids, each with the slice's distinct ids. */
  function AddRequests(albumId: string, ids: seq<string>): seq<AddRequest>
  {
    var batches := Seqs.SliceChunks(ids, BatchSize, 0);
    seq(|batches|, i requires 0 <= i < |batches| => AddRequest(albumId, ToSet(batches[i])))
  }

  /** Every add request names the album and holds between 1 and 50 distinct ids; together they
      hold exactly the album's ids; and there is no request at all when there are no ids. */
  lemma AddRequestsSpec(albumId: string, ids: seq<string>)
    ensures forall i :: 0 <= i < |AddRequests(albumId, ids)| ==>
              AddRequests(albumId, ids)[i].albumId == albumId
              && 1 <= |AddRequests(albumId, ids)[i].mediaItemIds| <= BatchSize
    ensures forall x :: x in ids <==> exists i :: 0 <= i < |AddRequests(albumId, ids)| && x in AddRequests(albumId, ids)[i].mediaItemIds
    ensures |AddRequests(albumId, ids)| == 0 <==> |ids| == 0
  {
    Seqs.ChunksAreSlices(ids, BatchSize, 0);
    assert ids[0..] == ids;
    var batches := Seqs.SliceChunks(ids, BatchSize, 0);
    var reqs := AddRequests(albumId, ids);
    forall x
      ensures x in ids <==> exists i :: 0 <= i < |reqs| && x in reqs[i].mediaItemIds
    {
      if x in ids {
        var i := Seqs.FlattenMember(batches, x);
        assert x in reqs[i].mediaItemIds;
      }
      if exists i :: 0 <= i < |reqs| && x in reqs[i].mediaItemIds {
        var i :| 0 <= i < |reqs| && x in reqs[i].mediaItemIds;
        Seqs.MemberFlatten(batches, i, x);
      }
    }
  }

  /** De-duplication happens per batch only: an id that occurs 51 times is sent in two requests. */
  lemma DedupIsPerBatch(albumId: string, x: string)
    ensures AddRequests(albumId, seq(51, _ => x)) == [AddRequest(albumId, {x}), AddRequest(albumId, {x})]
  {
    var ids := seq(51, _ => x);
    assert Seqs.Min(50, 51) == 50 && Seqs.Min(100, 51) == 51;
    var b0, b1 := ids[0..50], ids[50..51];
    assert Seqs.SliceChunks(ids, BatchSize, 100) == [];
    assert Seqs.SliceChunks(ids, BatchSize, 50) == [b1];
    assert Seqs.SliceChunks(ids, BatchSize, 0) == [b0, b1];
    assert b0[0] == x && b1[0] == x;
    assert ToSet(b0) == {x};
    assert ToSet(b1) == {x};
  }

  // ---------------------------------------------------------------------------
  // The main loop (lines 208-223)
  // ---------------------------------------------------------------------------

  /** The remote mutations a run has issued so far, in order. */
  datatype Log = Log(createdAlbums: seq<RemoteAlbum>, uploaded: seq<LA.LocalFile>,
                     createBatches: seq<seq<NewMediaItem>>, addRequests: seq<AddRequest>)

  const EmptyLog: Log := Log([], [], [], [])

  /** The cached catalog (`google_photos_albums`, `media_items`) and the mutations so far. */
  datatype State = State(albums: seq<RemoteAlbum>, items: seq<MediaItem>, log: Log)

  /** `st'` is `st` with things appended: nothing is ever removed or rewritten. */
  predicate Extends(st: State, st': State)
  {
    && Seqs.IsPrefix(st.albums, st'.albums)
    && Seqs.IsPrefix(st.items, st'.items)
    && Seqs.IsPrefix(st.log.createdAlbums, st'.log.createdAlbums)
    && Seqs.IsPrefix(st.log.uploaded, st'.log.uploaded)
    && Seqs.IsPrefix(st.log.createBatches, st'.log.createBatches)
    && Seqs.IsPrefix(st.log.addRequests, st'.log.addRequests)
  }

  lemma ExtendsTransitive(s1: State, s2: State, s3: State)
    requires Extends(s1, s2) && Extends(s2, s3)
    ensures Extends(s1, s3)
  {
    Seqs.PrefixTransitive(s1.albums, s2.albums, s3.albums);
    Seqs.PrefixTransitive(s1.items, s2.items, s3.items);
    Seqs.PrefixTransitive(s1.log.createdAlbums, s2.log.createdAlbums, s3.log.createdAlbums);
    Seqs.PrefixTransitive(s1.log.uploaded, s2.log.uploaded, s3.log.uploaded);
    Seqs.PrefixTransitive(s1.log.createBatches, s2.log.createBatches, s3.log.createBatches);
    Seqs.PrefixTransitive(s1.log.addRequests, s2.log.addRequests, s3.log.addRequests);
  }

  /** Line 212: an album is reused only when the lookup gives a non-empty id. */
  predicate HasUsableAlbum(albums: seq<RemoteAlbum>, name: string)
  {
    var found := GetAlbumId(name, albums);
    found.Some? && found.value != ""
  }

  /** Lines 210-216: the album the ids are added to: the cached album with the title when its
      id is usable, otherwise the one created for the title. */
  function AlbumIdFor(svc: Service, albums: seq<RemoteAlbum>, name: string): string
  {
    if HasUsableAlbum(albums, name) then GetAlbumId(name, albums).value else svc.createAlbum(name).id
  }

  /** Lines 209-223 for one local album: find or create the remote album, link or upload its
      files, then add every id to the album in batches. The pass fails exactly when
      `get_album_media_items` does, and its add requests are those for the pass's ids, sent to
      the album found or created. */
  function ProcessAlbum(svc: Service, st: State, name: string, files: seq<LA.LocalFile>): (r: Result<State, SyncError>)
    ensures r.Success? <==> GetAlbumMediaItems(svc, files, st.items).Success?
    ensures r.Success? ==> Extends(st, r.value)
    ensures r.Success? ==>
      |r.value.log.createdAlbums| == |st.log.createdAlbums| + (if HasUsableAlbum(st.albums, name) then 0 else 1)
    ensures r.Success? ==> forall f :: f in r.value.log.uploaded[|st.log.uploaded|..] ==> f in files && !Present(st.items, f)
    ensures r.Success? ==> r.value.items == GetAlbumMediaItems(svc, files, st.items).value.items
    ensures r.Success? ==> r.value.log.addRequests[|st.log.addRequests|..]
                           == AddRequests(AlbumIdFor(svc, st.albums, name), GetAlbumMediaItems(svc, files, st.items).value.ids)
  {
    var found := GetAlbumId(name, st.albums);
    var created := svc.createAlbum(name);
    var reuse := HasUsableAlbum(st.albums, name);
    var albumId := AlbumIdFor(svc, st.albums, name);
    var albums := if reuse then st.albums else st.albums + [created];
    var newAlbums := if reuse then [] else [created];
    match GetAlbumMediaItems(svc, files, st.items)
    case Failure(e) => Failure(e)
    case Success(m) =>
      var log := Log(st.log.createdAlbums + newAlbums, st.log.uploaded + m.uploaded,
                     st.log.createBatches + m.createBatches, st.log.addRequests + AddRequests(albumId, m.ids));
      assert log.uploaded[|st.log.uploaded|..] == m.uploaded;
      assert log.addRequests[|st.log.addRequests|..] == AddRequests(albumId, m.ids);
      Success(State(albums, m.items, log))
  }

  /** The loop at line 208 over `names` (the local albums in scan order). */
  function SyncAlbums(svc: Service, names: seq<string>, files: map<string, seq<LA.LocalFile>>, st: State): (r: Result<State, SyncError>)
    requires forall i :: 0 <= i < |names| ==> names[i] in files
    ensures r.Success? ==> Extends(st, r.value)
    decreases |names|
  {
    if |names| == 0 then Success(st)
    else match ProcessAlbum(svc, st, names[0], files[names[0]])
      case Failure(e) => Failure(e)
      case Success(next) =>
        var r := SyncAlbums(svc, names[1..], files, next);
        if r.Success? then ExtendsTransitive(st, next, r.value); r else r
  }

  /** One run of `main` from the cached catalog, after the scan produced `local`. */
  function Sync(svc: Service, local: LA.Albums, albums: seq<RemoteAlbum>, items: seq<MediaItem>): (r: Result<State, SyncError>)
    requires LA.Valid(local)
    ensures r.Success? ==> Seqs.IsPrefix(albums, r.value.albums) && Seqs.IsPrefix(items, r.value.items)
  {
    SyncAlbums(svc, local.names, local.files, State(albums, items, EmptyLog))
  }

  // ---------------------------------------------------------------------------
  // Batch bounds
  // ---------------------------------------------------------------------------

  /** Every request logged carries between 1 and 50 entries. */
  predicate BatchesBounded(log: Log)
  {
    && (forall i :: 0 <= i < |log.createBatches| ==> 1 <= |log.createBatches[i]| <= BatchSize)
    && (forall i :: 0 <= i < |log.addRequests| ==> 1 <= |log.addRequests[i].mediaItemIds| <= BatchSize)
  }

  lemma GetAlbumMediaItemsBounded(svc: Service, files: seq<LA.LocalFile>, items: seq<MediaItem>)
    requires GetAlbumMediaItems(svc, files, items).Success?
    ensures var b := GetAlbumMediaItems(svc, files, items).value.createBatches;
      forall i :: 0 <= i < |b| ==> 1 <= |b[i]| <= BatchSize
  {
    var tokens := UploadTokens(svc, PartitionFiles(items, files).needsUpload);
    Seqs.ChunksAreSlices(tokens, BatchSize, 0);
    assert tokens[0..] == tokens;
  }

  lemma ProcessAlbumBounded(svc: Service, st: State, name: string, files: seq<LA.LocalFile>)
    requires BatchesBounded(st.log)
    requires ProcessAlbum(svc, st, name, files).Success?
    ensures BatchesBounded(ProcessAlbum(svc, st, name, files).value.log)
  {
    var m := GetAlbumMediaItems(svc, files, st.items).value;
    GetAlbumMediaItemsBounded(svc, files, st.items);
    var found := GetAlbumId(name, st.albums);
    var albumId := if HasUsableAlbum(st.albums, name) then found.value else svc.createAlbum(name).id;
    AddRequestsSpec(albumId, m.ids);
    var log' := ProcessAlbum(svc, st, name, files).value.log;
    BoundedAfterAppend(st.log, log', m.createBatches, AddRequests(albumId, m.ids));
  }

  /** Appending bounded batches and requests to a bounded log keeps it bounded. */
  lemma BoundedAfterAppend(log: Log, log': Log, batches: seq<seq<NewMediaItem>>, reqs: seq<AddRequest>)
    requires BatchesBounded(log)
    requires log'.createBatches == log.createBatches + batches && log'.addRequests == log.addRequests + reqs
    requires forall i :: 0 <= i < |batches| ==> 1 <= |batches[i]| <= BatchSize
    requires forall i :: 0 <= i < |reqs| ==> 1 <= |reqs[i].mediaItemIds| <= BatchSize
    ensures BatchesBounded(log')
  {
  }

  /** Every batch-create and batch-add request of a run holds between 1 and 50 entries. */
  lemma {:induction false} SyncAlbumsBounded(svc: Service, names: seq<string>, files: map<string, seq<LA.LocalFile>>, st: State)
    requires forall i :: 0 <= i < |names| ==> names[i] in files
    requires BatchesBounded(st.log)
    requires SyncAlbums(svc, names, files, st).Success?
    ensures BatchesBounded(SyncAlbums(svc, names, files, st).value.log)
    decreases |names|
  {
    if |names| > 0 {
      ProcessAlbumBounded(svc, st, names[0], files[names[0]]);
      SyncAlbumsBounded(svc, names[1..], files, ProcessAlbum(svc, st, names[0], files[names[0]]).value);
    }
  }

  lemma SyncBounded(svc: Service, local: LA.Albums, albums: seq<RemoteAlbum>, items: seq<MediaItem>)
    requires LA.Valid(local)
    requires Sync(svc, local, albums, items).Success?
    ensures BatchesBounded(Sync(svc, local, albums, items).value.log)
  {
    SyncAlbumsBounded(svc, local.names, local.files, State(albums, items, EmptyLog));
  }

  // ---------------------------------------------------------------------------
  // Repeated runs
  // ---------------------------------------------------------------------------

  /** A service that behaves as documented: a created album carries the requested title and a
      non-empty id, and a batch-create answers every entry with a media item of non-empty id
      stored under the requested file name. */
  ghost predicate Honest(svc: Service)
  {
    && (forall t :: svc.createAlbum(t).title == t && svc.createAlbum(t).id != "")
    && (forall b: seq<NewMediaItem> :: |svc.batchCreate(b)| == |b|)
    && (forall b: seq<NewMediaItem>, i :: 0 <= i < |b| && i < |svc.batchCreate(b)| ==>
          && svc.batchCreate(b)[i].Some?
          && svc.batchCreate(b)[i].value.id != ""
          && svc.batchCreate(b)[i].value.filename == b[i].fileName)
  }

  /** Every cached album and media item carries a non-empty id. */
  predicate Clean(albums: seq<RemoteAlbum>, items: seq<MediaItem>)
  {
    (forall i :: 0 <= i < |albums| ==> albums[i].id != "") && IdsNonEmpty(items)
  }

  predicate Titled(albums: seq<RemoteAlbum>, title: string)
  {
    exists i :: 0 <= i < |albums| && albums[i].title == title
  }

  predicate Listed(items: seq<MediaItem>, filename: string)
  {
    exists i :: 0 <= i < |items| && items[i].filename == filename
  }

  /** The catalog already has the album and every one of its files. */
  predicate Known(albums: seq<RemoteAlbum>, items: seq<MediaItem>, name: string, files: seq<LA.LocalFile>)
  {
    Titled(albums, name) && forall j :: 0 <= j < |files| ==> Listed(items, files[j].filename)
  }

  /** In a clean catalog, "present" is just "listed under that name". */
  lemma PresentIffListed(albums: seq<RemoteAlbum>, items: seq<MediaItem>, f: LA.LocalFile)
    requires Clean(albums, items)
    ensures Present(items, f) <==> Listed(items, f.filename)
  {
  }

  /** In a clean catalog, an album is reused exactly when one has its title. */
  lemma UsableIffTitled(albums: seq<RemoteAlbum>, items: seq<MediaItem>, name: string)
    requires Clean(albums, items)
    ensures HasUsableAlbum(albums, name) <==> Titled(albums, name)
  {
  }

  lemma KnownExtends(albums: seq<RemoteAlbum>, items: seq<MediaItem>, albums': seq<RemoteAlbum>, items': seq<MediaItem>,
                     name: string, files: seq<LA.LocalFile>)
    requires Known(albums, items, name, files)
    requires Seqs.IsPrefix(albums, albums') && Seqs.IsPrefix(items, items')
    ensures Known(albums', items', name, files)
  {
    var a :| 0 <= a < |albums| && albums[a].title == name;
    assert albums'[a] == albums[a];
    forall j | 0 <= j < |files|
      ensures Listed(items', files[j].filename)
    {
      var i :| 0 <= i < |items| && items[i].filename == files[j].filename;
      assert items'[i] == items[i];
    }
  }

  predicate IdsNonEmpty(items: seq<MediaItem>)
  {
    forall i :: 0 <= i < |items| ==> items[i].id != ""
  }

  /** `items'` is `items` followed by one item per entry of `entries`, stored under the
      entry's file name. */
  predicate Registers(items: seq<MediaItem>, items': seq<MediaItem>, entries: seq<NewMediaItem>)
  {
    && |items'| == |items| + |entries|
    && Seqs.IsPrefix(items, items')
    && forall k :: 0 <= k < |entries| ==> items'[|items| + k].filename == entries[k].fileName
  }

  lemma RegistersConcat(i0: seq<MediaItem>, i1: seq<MediaItem>, i2: seq<MediaItem>, b: seq<NewMediaItem>, rest: seq<NewMediaItem>)
    requires Registers(i0, i1, b) && Registers(i1, i2, rest)
    ensures Registers(i0, i2, b + rest)
  {
    Seqs.PrefixTransitive(i0, i1, i2);
    forall k | 0 <= k < |b + rest|
      ensures i2[|i0| + k].filename == (b + rest)[k].fileName
    {
      if k < |b| {
        assert i2[|i0| + k] == i2[..|i1|][|i0| + k];
      } else {
        assert i2[|i0| + k] == i2[|i1| + (k - |b|)];
      }
    }
  }

  /** An honest answer to one batch-create request registers every entry with a non-empty id. */
  lemma AppendResultsHonest(svc: Service, b: seq<NewMediaItem>, acc: Added)
    requires Honest(svc) && IdsNonEmpty(acc.items)
    ensures AppendResults(svc.batchCreate(b), acc).Success?
    ensures var next := AppendResults(svc.batchCreate(b), acc).value;
      IdsNonEmpty(next.items) && Registers(acc.items, next.items, b)
  {
    var results := svc.batchCreate(b);
    ReturnedAll(results);
    var next := AppendResults(results, acc).value;
    assert next.items[..|acc.items|] == acc.items;
    forall i | 0 <= i < |next.items|
      ensures next.items[i].id != ""
    {
      if i >= |acc.items| {
        assert next.items[i] == results[i - |acc.items|].value;
      }
    }
  }

  /** An honest batch-create registers every entry: the catalog grows by one item per entry,
      in order, under the entry's file name and with a non-empty id. */
  lemma {:induction false} CreateAllHonest(svc: Service, batches: seq<seq<NewMediaItem>>, acc: Added)
    requires Honest(svc) && IdsNonEmpty(acc.items)
    ensures CreateAll(svc, batches, acc).Success?
    ensures var r := CreateAll(svc, batches, acc).value;
      IdsNonEmpty(r.items) && Registers(acc.items, r.items, Seqs.Flatten(batches))
    decreases |batches|
  {
    if |batches| > 0 {
      AppendResultsHonest(svc, batches[0], acc);
      var next := AppendResults(svc.batchCreate(batches[0]), acc).value;
      CreateAllHonest(svc, batches[1..], next);
      var r := CreateAll(svc, batches[1..], next).value;
      assert CreateAll(svc, batches, acc) == CreateAll(svc, batches[1..], next);
      RegistersConcat(acc.items, next.items, r.items, batches[0], Seqs.Flatten(batches[1..]));
    } else {
      assert acc.items[..|acc.items|] == acc.items;
    }
  }

  /** With an honest service, one album's pass registers one catalog item per uploaded file. */
  lemma GetAlbumMediaItemsRegisters(svc: Service, files: seq<LA.LocalFile>, items: seq<MediaItem>)
    requires Honest(svc) && IdsNonEmpty(items)
    ensures GetAlbumMediaItems(svc, files, items).Success?
    ensures var m := GetAlbumMediaItems(svc, files, items).value;
      && IdsNonEmpty(m.items)
      && Registers(items, m.items, UploadTokens(svc, PartitionFiles(items, files).needsUpload))
  {
    var p := PartitionFiles(items, files);
    var tokens := UploadTokens(svc, p.needsUpload);
    Seqs.ChunksAreSlices(tokens, BatchSize, 0);
    assert tokens[0..] == tokens;
    CreateAllHonest(svc, Seqs.SliceChunks(tokens, BatchSize, 0), Added(p.mediaItemIds, items));
  }

  /** A file that was already present, or was uploaded and registered, is listed afterwards. */
  lemma ListedAfterPass(albums: seq<RemoteAlbum>, items: seq<MediaItem>, items': seq<MediaItem>,
                        tokens: seq<NewMediaItem>, needs: seq<LA.LocalFile>, f: LA.LocalFile)
    requires Clean(albums, items) && Registers(items, items', tokens)
    requires |tokens| == |needs| && forall k :: 0 <= k < |needs| ==> tokens[k].fileName == needs[k].filename
    requires Present(items, f) || f in needs
    ensures Listed(items', f.filename)
  {
    PresentIffListed(albums, items, f);
    if Present(items, f) {
      var i :| 0 <= i < |items| && items[i].filename == f.filename;
      assert items'[i] == items'[..|items|][i];
    } else {
      var k :| 0 <= k < |needs| && needs[k] == f;
      assert items'[|items| + k].filename == f.filename;
    }
  }

  /** With an honest service and a clean catalog, one album's pass lists every one of its files
      and keeps the catalog clean. */
  lemma GetAlbumMediaItemsHonest(svc: Service, albums: seq<RemoteAlbum>, files: seq<LA.LocalFile>, items: seq<MediaItem>)
    requires Honest(svc) && Clean(albums, items)
    ensures GetAlbumMediaItems(svc, files, items).Success?
    ensures var m := GetAlbumMediaItems(svc, files, items).value;
      && Clean(albums, m.items)
      && forall j :: 0 <= j < |files| ==> Listed(m.items, files[j].filename)
  {
    var p := PartitionFiles(items, files);
    var tokens := UploadTokens(svc, p.needsUpload);
    GetAlbumMediaItemsRegisters(svc, files, items);
    var m := GetAlbumMediaItems(svc, files, items).value;
    forall j | 0 <= j < |files|
      ensures Listed(m.items, files[j].filename)
    {
      PresentOrQueued(items, files, j);
      ListedAfterPass(albums, items, m.items, tokens, p.needsUpload, files[j]);
    }
  }

  /** Each of the album's files is either already present or queued for upload. */
  lemma PresentOrQueued(items: seq<MediaItem>, files: seq<LA.LocalFile>, j: nat)
    requires j < |files|
    ensures Present(items, files[j]) || files[j] in PartitionFiles(items, files).needsUpload
  {
    PartitionSpec(items, files);
  }

  /** The catalog id of a present album file is among the ids the partition collects. */
  lemma PresentIdCollected(items: seq<MediaItem>, files: seq<LA.LocalFile>, f: LA.LocalFile)
    requires f in files && Present(items, f)
    ensures CatalogId(items, f) in PartitionFiles(items, files).mediaItemIds
  {
    Seqs.FilterMembers(PresentIn(items), files);
    var present := Seqs.Filter(PresentIn(items), files);
    var i :| 0 <= i < |present| && present[i] == f;
    assert PartitionFiles(items, files).mediaItemIds[i] == CatalogId(items, f);
  }

  /** Two local files with the same name are one file to the catalog: once an item with that
      name and a non-empty id is catalogued, neither is queued and both yield that item's id. */
  lemma SharedNameSharesId(items: seq<MediaItem>, files: seq<LA.LocalFile>, f: LA.LocalFile, g: LA.LocalFile)
    requires f in files && f.filename == g.filename && Present(items, g)
    ensures f !in PartitionFiles(items, files).needsUpload
    ensures Present(items, f) && CatalogId(items, f) == CatalogId(items, g)
    ensures CatalogId(items, g) in PartitionFiles(items, files).mediaItemIds
  {
    PartitionSpec(items, files);
    PresentIdCollected(items, files, f);
  }

  /** A catalogued item whose id is empty never makes its file present: the file is queued for
      upload again however many items later passes append. */
  lemma EmptyIdQueuedAgain(items: seq<MediaItem>, more: seq<MediaItem>, files: seq<LA.LocalFile>, f: LA.LocalFile)
    requires f in files && LookupMediaId(f.filename, items) == Some("")
    ensures f in PartitionFiles(items + more, files).needsUpload
  {
    LookupMediaIdAppend(f.filename, items, more);
    PartitionSpec(items + more, files);
  }

  /** A cached album with the title but an empty id is never reused: the pass creates a new
      album, and afterwards the empty-id album still comes first for the title, so the next pass
      creates one again. */
  lemma EmptyAlbumIdRecreated(svc: Service, st: State, name: string, files: seq<LA.LocalFile>)
    requires GetAlbumId(name, st.albums) == Some("")
    requires ProcessAlbum(svc, st, name, files).Success?
    ensures |ProcessAlbum(svc, st, name, files).value.log.createdAlbums| == |st.log.createdAlbums| + 1
    ensures GetAlbumId(name, ProcessAlbum(svc, st, name, files).value.albums) == Some("")
  {
    var r := ProcessAlbum(svc, st, name, files).value;
    GetAlbumIdAppend(name, st.albums, r.albums[|st.albums|..]);
    assert st.albums + r.albums[|st.albums|..] == r.albums;
  }

  /** A file the old catalog already names keeps its id after the appends, and in a clean
      catalog that id is among the partition's ids. */
  lemma IdFromCatalog(albums: seq<RemoteAlbum>, items: seq<MediaItem>, more: seq<MediaItem>,
                      files: seq<LA.LocalFile>, f: LA.LocalFile)
    requires Clean(albums, items) && f in files && LookupMediaId(f.filename, items).Some?
    ensures LookupMediaId(f.filename, items + more) == LookupMediaId(f.filename, items)
    ensures LookupMediaId(f.filename, items).value in PartitionFiles(items, files).mediaItemIds
  {
    LookupMediaIdAppend(f.filename, items, more);
    PresentIdCollected(items, files, f);
  }

  /** A file the old catalog does not name is found among the appended items, so its id is
      among their ids. */
  lemma IdFromCreated(items: seq<MediaItem>, created: seq<MediaItem>, collected: seq<string>, f: LA.LocalFile)
    requires LookupMediaId(f.filename, items).None? && LookupMediaId(f.filename, items + created).Some?
    ensures LookupMediaId(f.filename, items + created).value in collected + Ids(created)
  {
    var all := items + created;
    var i :| 0 <= i < |all| && all[i].filename == f.filename && LookupMediaId(f.filename, all).value == all[i].id;
    assert i >= |items|;
    assert (collected + Ids(created))[|collected| + (i - |items|)] == all[i].id;
  }

  /** After an honest pass, the id the catalog gives for an album file is one of the ids the
      pass returns. */
  lemma FileIdReturned(svc: Service, albums: seq<RemoteAlbum>, files: seq<LA.LocalFile>, items: seq<MediaItem>, j: nat)
    requires Honest(svc) && Clean(albums, items) && j < |files|
    ensures GetAlbumMediaItems(svc, files, items).Success?
    ensures var m := GetAlbumMediaItems(svc, files, items).value;
      LookupMediaId(files[j].filename, m.items).Some? && LookupMediaId(files[j].filename, m.items).value in m.ids
  {
    GetAlbumMediaItemsHonest(svc, albums, files, items);
    var m := GetAlbumMediaItems(svc, files, items).value;
    var created := Created(svc, m.createBatches);
    var collected := PartitionFiles(items, files).mediaItemIds;
    assert Listed(m.items, files[j].filename);
    if LookupMediaId(files[j].filename, items).Some? {
      IdFromCatalog(albums, items, created, files, files[j]);
    } else {
      IdFromCreated(items, created, collected, files[j]);
    }
  }

  /** With an honest service over a clean catalog, the album the add requests target is the one
      the catalog lists first under the album's title after the pass. */
  lemma ProcessAlbumTargetsTitledAlbum(svc: Service, st: State, name: string, files: seq<LA.LocalFile>)
    requires Honest(svc) && Clean(st.albums, st.items)
    ensures ProcessAlbum(svc, st, name, files).Success?
    ensures GetAlbumId(name, ProcessAlbum(svc, st, name, files).value.albums) == Some(AlbumIdFor(svc, st.albums, name))
  {
    GetAlbumMediaItemsHonest(svc, st.albums, files, st.items);
    if !HasUsableAlbum(st.albums, name) {
      CreatedAlbumFound(st.albums, svc.createAlbum(name), name);
    }
  }

  /** With no usable album titled `name` in a clean catalog, the appended album with that title
      is the first match. */
  lemma CreatedAlbumFound(albums: seq<RemoteAlbum>, c: RemoteAlbum, name: string)
    requires forall i :: 0 <= i < |albums| ==> albums[i].id != ""
    requires !HasUsableAlbum(albums, name) && c.title == name
    ensures GetAlbumId(name, albums + [c]) == Some(c.id)
  {
    var all := albums + [c];
    assert all[|albums|].title == name;
    var i :| 0 <= i < |all| && all[i].title == name && GetAlbumId(name, all).value == all[i].id
             && forall j :: 0 <= j < i ==> all[j].title != name;
    assert i == |albums|;
  }

  /** With an honest service, every file of an album ends up in an add request for that album:
      the id the catalog gives for the file is in one of the pass's new add requests, and each of
      them targets the album found or created for the title. */
  lemma ProcessAlbumAddsEveryFile(svc: Service, st: State, name: string, files: seq<LA.LocalFile>)
    requires Honest(svc) && Clean(st.albums, st.items)
    ensures ProcessAlbum(svc, st, name, files).Success?
    ensures var st' := ProcessAlbum(svc, st, name, files).value;
      forall j :: 0 <= j < |files| ==>
        && LookupMediaId(files[j].filename, st'.items).Some?
        && exists k :: |st.log.addRequests| <= k < |st'.log.addRequests|
             && st'.log.addRequests[k].albumId == AlbumIdFor(svc, st.albums, name)
             && LookupMediaId(files[j].filename, st'.items).value in st'.log.addRequests[k].mediaItemIds
  {
    GetAlbumMediaItemsHonest(svc, st.albums, files, st.items);
    var m := GetAlbumMediaItems(svc, files, st.items).value;
    var st' := ProcessAlbum(svc, st, name, files).value;
    var albumId := AlbumIdFor(svc, st.albums, name);
    var reqs := AddRequests(albumId, m.ids);
    AddRequestsSpec(albumId, m.ids);
    var n := |st.log.addRequests|;
    assert st'.log.addRequests[n..] == reqs;
    forall j | 0 <= j < |files|
      ensures LookupMediaId(files[j].filename, st'.items).Some?
      ensures exists k :: n <= k < |st'.log.addRequests|
                && st'.log.addRequests[k].albumId == albumId
                && LookupMediaId(files[j].filename, st'.items).value in st'.log.addRequests[k].mediaItemIds
    {
      FileIdReturned(svc, st.albums, files, st.items, j);
      var x := LookupMediaId(files[j].filename, m.items).value;
      var i :| 0 <= i < |reqs| && x in reqs[i].mediaItemIds;
      assert st'.log.addRequests[n + i] == reqs[i];
    }
  }

  /** With an honest service, processing an album leaves it and its files known to a clean
      catalog. */
  lemma ProcessAlbumHonest(svc: Service, st: State, name: string, files: seq<LA.LocalFile>)
    requires Honest(svc) && Clean(st.albums, st.items)
    ensures ProcessAlbum(svc, st, name, files).Success?
    ensures var st' := ProcessAlbum(svc, st, name, files).value;
      Clean(st'.albums, st'.items) && Known(st'.albums, st'.items, name, files)
  {
    GetAlbumMediaItemsHonest(svc, st.albums, files, st.items);
    UsableIffTitled(st.albums, st.items, name);
    var st' := ProcessAlbum(svc, st, name, files).value;
    if !HasUsableAlbum(st.albums, name) {
      assert st'.albums[|st.albums|] == svc.createAlbum(name);
    }
  }

  /** Processing an album the catalog already knows creates nothing, uploads nothing and leaves
      the catalog as it is; it still issues add requests when the album has files. */
  lemma ProcessKnownAlbum(svc: Service, st: State, name: string, files: seq<LA.LocalFile>)
    requires Clean(st.albums, st.items) && Known(st.albums, st.items, name, files)
    ensures ProcessAlbum(svc, st, name, files).Success?
    ensures var st' := ProcessAlbum(svc, st, name, files).value;
      && st'.albums == st.albums && st'.items == st.items
      && st'.log.createdAlbums == st.log.createdAlbums
      && st'.log.uploaded == st.log.uploaded
      && st'.log.createBatches == st.log.createBatches
      && (|files| > 0 ==> |st'.log.addRequests| > |st.log.addRequests|)
  {
    UsableIffTitled(st.albums, st.items, name);
    forall j | 0 <= j < |files|
      ensures Present(st.items, files[j])
    {
      PresentIffListed(st.albums, st.items, files[j]);
    }
    NothingMissingNothingQueued(st.items, files);
    var p := PartitionFiles(st.items, files);
    assert UploadTokens(svc, p.needsUpload) == [];
    assert Seqs.SliceChunks(UploadTokens(svc, p.needsUpload), BatchSize, 0) == [];
    var m := GetAlbumMediaItems(svc, files, st.items).value;
    assert m.ids == p.mediaItemIds && m.items == st.items;
    AddRequestsSpec(GetAlbumId(name, st.albums).value, m.ids);
  }

  /** The loop's first iteration: a run over `names` is the first album's pass followed by a
      run over the rest. */
  lemma SyncAlbumsUnfold(svc: Service, names: seq<string>, files: map<string, seq<LA.LocalFile>>, st: State, next: State)
    requires forall i :: 0 <= i < |names| ==> names[i] in files
    requires |names| > 0 && ProcessAlbum(svc, st, names[0], files[names[0]]) == Success(next)
    ensures SyncAlbums(svc, names, files, st) == SyncAlbums(svc, names[1..], files, next)
  {
  }

  lemma KnownCons(names: seq<string>, files: map<string, seq<LA.LocalFile>>, next: State, st': State)
    requires forall i :: 0 <= i < |names| ==> names[i] in files
    requires |names| > 0 && Known(next.albums, next.items, names[0], files[names[0]])
    requires Seqs.IsPrefix(next.albums, st'.albums) && Seqs.IsPrefix(next.items, st'.items)
    requires forall i :: 0 <= i < |names[1..]| ==> Known(st'.albums, st'.items, names[1..][i], files[names[1..][i]])
    ensures forall i :: 0 <= i < |names| ==> Known(st'.albums, st'.items, names[i], files[names[i]])
  {
    KnownExtends(next.albums, next.items, st'.albums, st'.items, names[0], files[names[0]]);
    forall i | 1 <= i < |names|
      ensures Known(st'.albums, st'.items, names[i], files[names[i]])
    {
      assert names[i] == names[1..][i - 1];
    }
  }

  /** A run with an honest service over a clean catalog succeeds, keeps the catalog clean and
      leaves every local album and every one of its files known to it. */
  lemma {:induction false} SyncAlbumsHonest(svc: Service, names: seq<string>, files: map<string, seq<LA.LocalFile>>, st: State)
    requires forall i :: 0 <= i < |names| ==> names[i] in files
    requires Honest(svc) && Clean(st.albums, st.items)
    ensures SyncAlbums(svc, names, files, st).Success?
    ensures var st' := SyncAlbums(svc, names, files, st).value;
      && Clean(st'.albums, st'.items)
      && forall i :: 0 <= i < |names| ==> Known(st'.albums, st'.items, names[i], files[names[i]])
    decreases |names|
  {
    if |names| > 0 {
      ProcessAlbumHonest(svc, st, names[0], files[names[0]]);
      var next := ProcessAlbum(svc, st, names[0], files[names[0]]).value;
      SyncAlbumsHonest(svc, names[1..], files, next);
      SyncAlbumsUnfold(svc, names, files, st, next);
      var st' := SyncAlbums(svc, names, files, st).value;
      KnownCons(names, files, next, st');
    }
  }

  /** A run over a catalog that already knows every album and file creates nothing, uploads
      nothing and leaves the catalog unchanged, but issues add requests for every album that
      has files. */
  lemma {:induction false} SyncAlbumsKnown(svc: Service, names: seq<string>, files: map<string, seq<LA.LocalFile>>, st: State)
    requires forall i :: 0 <= i < |names| ==> names[i] in files
    requires Clean(st.albums, st.items)
    requires forall i :: 0 <= i < |names| ==> Known(st.albums, st.items, names[i], files[names[i]])
    ensures SyncAlbums(svc, names, files, st).Success?
    ensures var st' := SyncAlbums(svc, names, files, st).value;
      && st'.albums == st.albums && st'.items == st.items
      && st'.log.createdAlbums == st.log.createdAlbums
      && st'.log.uploaded == st.log.uploaded
      && st'.log.createBatches == st.log.createBatches
      && ((exists i :: 0 <= i < |names| && |files[names[i]]| > 0) ==> |st'.log.addRequests| > |st.log.addRequests|)
    decreases |names|
  {
    if |names| > 0 {
      ProcessKnownAlbum(svc, st, names[0], files[names[0]]);
      var next := ProcessAlbum(svc, st, names[0], files[names[0]]).value;
      forall i | 0 <= i < |names[1..]|
        ensures Known(next.albums, next.items, names[1..][i], files[names[1..][i]])
      {
        assert names[1..][i] == names[i + 1];
      }
      SyncAlbumsKnown(svc, names[1..], files, next);
      var st' := SyncAlbums(svc, names, files, st).value;
      assert st' == SyncAlbums(svc, names[1..], files, next).value;
      if exists i :: 0 <= i < |names| && |files[names[i]]| > 0 {
        var i :| 0 <= i < |names| && |files[names[i]]| > 0;
        if i > 0 {
          assert names[1..][i - 1] == names[i];
        }
      }
    }
  }

  /** Running the sync twice with an honest service, starting from a clean catalog and with
      the same local albums: the first run succeeds and leaves every album and file in the
      catalog, and the second run creates no album, uploads no file, issues no batch-create and
      leaves the catalog exactly as the first run left it. */
  lemma SecondRunCreatesAndUploadsNothing(svc: Service, local: LA.Albums, albums: seq<RemoteAlbum>, items: seq<MediaItem>)
    requires LA.Valid(local) && Honest(svc) && Clean(albums, items)
    ensures Sync(svc, local, albums, items).Success?
    ensures var first := Sync(svc, local, albums, items).value;
      var second := Sync(svc, local, first.albums, first.items);
      && second.Success?
      && second.value.albums == first.albums && second.value.items == first.items
      && second.value.log.createdAlbums == [] && second.value.log.uploaded == [] && second.value.log.createBatches == []
  {
    var st := State(albums, items, EmptyLog);
    SyncAlbumsHonest(svc, local.names, local.files, st);
    var first := Sync(svc, local, albums, items).value;
    SyncAlbumsKnown(svc, local.names, local.files, State(first.albums, first.items, EmptyLog));
  }

  /** The second run still re-adds every album's ids: as soon as one local album has a file, it
      issues at least one add request. */
  lemma SecondRunStillAdds(svc: Service, local: LA.Albums, albums: seq<RemoteAlbum>, items: seq<MediaItem>, name: string)
    requires LA.Valid(local) && Honest(svc) && Clean(albums, items)
    requires name in local.files && |local.files[name]| > 0
    ensures Sync(svc, local, albums, items).Success?
    ensures var first := Sync(svc, local, albums, items).value;
      var second := Sync(svc, local, first.albums, first.items);
      second.Success? && |second.value.log.addRequests| > 0
  {
    var st := State(albums, items, EmptyLog);
    SyncAlbumsHonest(svc, local.names, local.files, st);
    var first := Sync(svc, local, albums, items).value;
    var i :| 0 <= i < |local.names| && local.names[i] == name;
    SyncAlbumsKnown(svc, local.names, local.files, State(first.albums, first.items, EmptyLog));
  }
}

=== FILE: seqs.dfy ===
/** Generic sequence facts used by the scanner and the reconciler:
    first-match search, order-preserving filtering, flattening and
    fixed-size chunking (Python's `xs[i:i + n] for i in range(0, len(xs), n)`). */
module Seqs {
  import opened Wrappers

  /** The index of the first element satisfying `p`, scanning front to back
      (the shape of every `for ...: if ...: return/break` search in the program). */
  function FirstIndex<T>(s: seq<T>, p: T -> bool): (r: Option<nat>)
    ensures r.Some? ==> r.value < |s| && p(s[r.value])
    ensures r.Some? ==> forall j :: 0 <= j < r.value ==> !p(s[j])
    ensures r.None? ==> forall j :: 0 <= j < |s| ==> !p(s[j])
  {
    if |s| == 0 then None
    else if p(s[0]) then Some(0)
    else match FirstIndex(s[1..], p)
      case None => None
      case Some(k) => Some(k + 1)
  }

  /** Appending elements never changes a first match that already exists. */
  lemma FirstIndexAppend<T>(s: seq<T>, t: seq<T>, p: T -> bool)
    requires FirstIndex(s, p).Some?
    ensures FirstIndex(s + t, p) == FirstIndex(s, p)
  {
    var k := FirstIndex(s, p).value;
    assert forall j :: 0 <= j <= k ==> (s + t)[j] == s[j];
  }

  /** The elements of `s` satisfying `p`, in their original order. */
  function Filter<T>(p: T -> bool, s: seq<T>): (r: seq<T>)
    ensures |r| <= |s|
    ensures forall i :: 0 <= i < |r| ==> p(r[i])
  {
    if |s| == 0 then [] else (if p(s[0]) then [s[0]] else []) + Filter(p, s[1..])
  }

  /** `a` can be obtained from `b` by deleting elements: an order-preserving sub-sequence. */
  predicate IsSubsequence<T(==)>(a: seq<T>, b: seq<T>)
    decreases |b|
  {
    if |a| == 0 then true
    else if |b| == 0 then false
    else if a[0] == b[0] then IsSubsequence(a[1..], b[1..])
    else IsSubsequence(a, b[1..])
  }

  /** Filtering keeps exactly the occurrences that satisfy `p`, each as often as in the input,
      and in input order. */
  lemma {:induction false} FilterSpec<T>(p: T -> bool, s: seq<T>)
    ensures IsSubsequence(Filter(p, s), s)
    ensures forall x :: multiset(Filter(p, s))[x] == (if p(x) then multiset(s)[x] else 0)
  {
    if |s| > 0 {
      FilterSpec(p, s[1..]);
      assert s == [s[0]] + s[1..];
      var rest := Filter(p, s[1..]);
      if p(s[0]) {
        assert Filter(p, s) == [s[0]] + rest;
        assert Filter(p, s)[1..] == rest;
      } else {
        assert Filter(p, s) == rest;
        SubsequenceDropHead(rest, s);
      }
    }
  }

  /** An element is in the filtered sequence iff it is in the input and satisfies `p`. */
  lemma {:induction false} FilterMembers<T>(p: T -> bool, s: seq<T>)
    ensures forall x :: x in Filter(p, s) <==> x in s && p(x)
  {
    if |s| > 0 {
      FilterMembers(p, s[1..]);
      assert s == [s[0]] + s[1..];
    }
  }

  /** A sub-sequence of the tail is a sub-sequence of the whole. */
  lemma {:induction false} SubsequenceDropHead<T>(a: seq<T>, b: seq<T>)
    requires |b| > 0 && IsSubsequence(a, b[1..])
    ensures IsSubsequence(a, b)
    decreases |b|, |a|
  {
    if |a| > 0 && a[0] == b[0] {
      SubsequenceTail(a, b[1..]);
    }
  }

  /** Dropping the first element of a sub-sequence keeps it a sub-sequence. */
  lemma {:induction false} SubsequenceTail<T>(a: seq<T>, c: seq<T>)
    requires |a| > 0 && IsSubsequence(a, c)
    ensures IsSubsequence(a[1..], c)
    decreases |c|, |a|
  {
    if a[0] == c[0] {
      SubsequenceDropHead(a[1..], c);
    } else {
      SubsequenceTail(a, c[1..]);
      SubsequenceDropHead(a[1..], c);
    }
  }

  /** `p` is a prefix of `s`. */
  predicate IsPrefix<T(==)>(p: seq<T>, s: seq<T>)
  {
    |p| <= |s| && s[..|p|] == p
  }

  lemma PrefixTransitive<T>(p: seq<T>, q: seq<T>, s: seq<T>)
    requires IsPrefix(p, q) && IsPrefix(q, s)
    ensures IsPrefix(p, s)
  {
    assert s[..|p|] == q[..|p|];
  }

  /** Concatenation of a sequence of sequences. */
  function Flatten<T>(ss: seq<seq<T>>): seq<T>
  {
    if |ss| == 0 then [] else ss[0] + Flatten(ss[1..])
  }

  /** Every element of a concatenation comes from one of its parts. */
  lemma {:induction false} FlattenMember<T>(ss: seq<seq<T>>, x: T) returns (i: nat)
    requires x in Flatten(ss)
    ensures i < |ss| && x in ss[i]
  {
    if x in ss[0] {
      i := 0;
    } else {
      var j := FlattenMember(ss[1..], x);
      i := j + 1;
    }
  }

  /** Every element of every part is in the concatenation. */
  lemma {:induction false} MemberFlatten<T>(ss: seq<seq<T>>, i: nat, x: T)
    requires i < |ss| && x in ss[i]
    ensures x in Flatten(ss)
  {
    if i > 0 {
      MemberFlatten(ss[1..], i - 1, x);
    }
  }

  function Min(a: int, b: int): int { if a <= b then a else b }

  /** Splits `xs` into consecutive chunks of `n` elements, the last one possibly shorter. */
  function Chunks<T>(xs: seq<T>, n: nat): (r: seq<seq<T>>)
    requires n > 0
    ensures forall k :: 0 <= k < |r| ==> 1 <= |r[k]| <= n
    ensures Flatten(r) == xs
    ensures |r| == 0 <==> |xs| == 0
    decreases |xs|
  {
    if |xs| == 0 then []
    else if |xs| <= n then [xs]
    else [xs[..n]] + Chunks(xs[n..], n)
  }

  /** There are as many chunks as `range(0, len(xs), n)` has elements: the least count
      whose chunks of `n` cover `xs`. */
  lemma {:induction false} ChunksCount<T>(xs: seq<T>, n: nat)
    requires n > 0
    ensures |Chunks(xs, n)| * n >= |xs|
    ensures |xs| > 0 ==> (|Chunks(xs, n)| - 1) * n < |xs|
    decreases |xs|
  {
    if |xs| > n {
      ChunksCount(xs[n..], n);
      var c := |Chunks(xs[n..], n)|;
      assert |Chunks(xs, n)| == c + 1;
      MulSucc(c, n);
      MulSucc(c - 1, n);
    }
  }

  /** Python's comprehension `[xs[i:i + n] for i in range(start, len(xs), n)]`, written
      literally: one slice per start index, the slice clipped at the end of `xs`. */
  function SliceChunks<T>(xs: seq<T>, n: nat, start: nat): seq<seq<T>>
    requires n > 0
    decreases |xs| - start
  {
    if start >= |xs| then [] else [xs[start .. Min(start + n, |xs|)]] + SliceChunks(xs, n, start + n)
  }

  /** `Chunks` is exactly the slicing `xs[i:i+n] for i in range(0, len(xs), n)`. */
  lemma {:induction false} ChunksAreSlices<T>(xs: seq<T>, n: nat, start: nat)
    requires n > 0 && start <= |xs|
    ensures SliceChunks(xs, n, start) == Chunks(xs[start..], n)
    decreases |xs| - start
  {
    var rest := xs[start..];
    if start < |xs| {
      if start + n < |xs| {
        ChunksAreSlices(xs, n, start + n);
        assert rest[..n] == xs[start .. start + n];
        assert rest[n..] == xs[start + n..];
        assert Chunks(rest, n) == [rest[..n]] + Chunks(rest[n..], n);
        assert SliceChunks(xs, n, start) == [xs[start .. start + n]] + SliceChunks(xs, n, start + n);
      } else {
        assert Min(start + n, |xs|) == |xs|;
        assert SliceChunks(xs, n, start) == [xs[start .. |xs|]] + SliceChunks(xs, n, start + n);
        assert xs[start .. |xs|] == rest;
        assert Chunks(rest, n) == [rest];
      }
    }
  }

  lemma MulSucc(c: int, n: int)
    ensures (c + 1) * n == c * n + n
  {
  }
}

=== FILE: strings.dfy ===
/** The few Python `str` operations the scanner relies on, restricted to ASCII:
    `sep in s` on strings (substring test), `s.split(c)` and `s.upper()`. */
module Strings {

  predicate IsDigit(c: char)
  {
    '0' <= c <= '9'
  }

  /** ASCII upper-casing of one character. */
  function UpperChar(c: char): char
  {
    if 'a' <= c <= 'z' then (c as int - 32) as char else c
  }

  /** ASCII model of `s.upper()`. */
  function Upper(s: string): string
  {
    seq(|s|, i requires 0 <= i < |s| => UpperChar(s[i]))
  }

  /** `p` occurs in `s` starting at index `k`. */
  predicate OccursAt(s: string, p: string, k: nat)
  {
    k + |p| <= |s| && s[k .. k + |p|] == p
  }

  /** Python's `s.endswith(suffix)`. */
  predicate EndsWith(s: string, suffix: string)
  {
    |suffix| <= |s| && s[|s| - |suffix| ..] == suffix
  }

  /** Python's `p in s` for strings: `p` is a substring of `s` (the empty string is in every string). */
  predicate Contains(s: string, p: string)
  {
    exists k :: 0 <= k <= |s| && OccursAt(s, p, k)
  }

  /** Glues pieces back together with `c` between consecutive pieces: Python's `c.join(ps)`. */
  function Join(ps: seq<string>, c: char): string
  {
    if |ps| == 0 then "" else if |ps| == 1 then ps[0] else ps[0] + [c] + Join(ps[1..], c)
  }

  /** Python's `s.split(c)`: the maximal `c`-free pieces between separators, empty pieces
      included, so that joining them with `c` gives `s` back. */
  function Split(s: string, c: char): (r: seq<string>)
    ensures |r| >= 1
    ensures forall i :: 0 <= i < |r| ==> c !in r[i]
    ensures Join(r, c) == s
    decreases |s|
  {
    if |s| == 0 then [""]
    else
      var rest := Split(s[1..], c);
      if s[0] == c then
        assert s == [c] + Join(rest, c);
        [""] + rest
      else
        JoinConsHead(s[0], rest, c);
        assert s == [s[0]] + s[1..];
        [[s[0]] + rest[0]] + rest[1..]
  }

  /** A string without the separator is a single piece. */
  lemma {:induction false} SplitFree(s: string, c: char)
    requires c !in s
    ensures Split(s, c) == [s]
    decreases |s|
  {
    if |s| > 0 {
      SplitFree(s[1..], c);
      assert [s[0]] + s[1..] == s;
    }
  }

  /** Splitting at the first separator: the separator-free head is the first piece and the
      rest splits on its own. */
  lemma {:induction false} SplitAtFirst(s: string, t: string, c: char)
    requires c !in s
    ensures Split(s + [c] + t, c) == [s] + Split(t, c)
    decreases |s|
  {
    var w := s + [c] + t;
    if |s| == 0 {
      assert w == [c] + t && w[1..] == t;
    } else {
      SplitAtFirst(s[1..], t, c);
      assert w[0] == s[0] && w[1..] == s[1..] + [c] + t;
      assert [s[0]] + s[1..] == s;
    }
  }

  /** Prefixing the first piece prefixes the joined string. */
  lemma JoinConsHead(x: char, ps: seq<string>, c: char)
    requires |ps| >= 1
    ensures Join([[x] + ps[0]] + ps[1..], c) == [x] + Join(ps, c)
  {
    var qs := [[x] + ps[0]] + ps[1..];
    if |ps| > 1 {
      assert qs[1..] == ps[1..];
    }
  }

  /** Every piece produced by `Split` is a substring of the split string. */
  lemma {:induction false} SplitPiecesOccur(s: string, c: char)
    ensures forall i :: 0 <= i < |Split(s, c)| ==> Contains(s, Split(s, c)[i])
  {
    var r := Split(s, c);
    forall i | 0 <= i < |r|
      ensures Contains(s, r[i])
    {
      var k := JoinPieceOffset(r, c, i);
      assert OccursAt(s, r[i], k);
    }
  }

  /** The offset at which piece `i` sits inside `Join(ps, c)`. */
  lemma {:induction false} JoinPieceOffset(ps: seq<string>, c: char, i: nat) returns (k: nat)
    requires i < |ps|
    ensures OccursAt(Join(ps, c), ps[i], k)
    decreases i
  {
    if i == 0 {
      k := 0;
      if |ps| > 1 {
        assert Join(ps, c)[.. |ps[0]|] == ps[0];
      }
    } else {
      var k' := JoinPieceOffset(ps[1..], c, i - 1);
      var head := ps[0] + [c];
      assert Join(ps, c) == head + Join(ps[1..], c);
      k := |head| + k';
      assert Join(ps, c)[k .. k + |ps[i]|] == Join(ps[1..], c)[k' .. k' + |ps[i]|];
    }
  }

  /** The last piece of `s.split(c)` is the text after the last `c`: a `c`-free suffix
      of `s` that is either all of `s` or preceded by `c`. */
  lemma {:induction false} SplitLast(s: string, c: char)
    ensures var e := Split(s, c)[|Split(s, c)| - 1];
      && |e| <= |s| && e == s[|s| - |e| ..]
      && (|e| == |s| || s[|s| - |e| - 1] == c)
    decreases |s|
  {
    if |s| > 0 {
      var t := s[1..];
      var rest := Split(t, c);
      SplitLast(t, c);
      var e' := rest[|rest| - 1];
      if s[0] == c {
        SplitLastSeparatorFirst(s, c, e');
      } else if |rest| == 1 {
        SplitLastSinglePiece(s, c);
      } else {
        SplitLastCharFirst(s, c, e');
      }
    }
  }

  lemma SplitLastSeparatorFirst(s: string, c: char, e': string)
    requires |s| > 0 && s[0] == c
    requires var rest := Split(s[1..], c); e' == rest[|rest| - 1] && |e'| <= |s| - 1 && e' == s[1..][|s| - 1 - |e'| ..]
    ensures Split(s, c)[|Split(s, c)| - 1] == e' && e' == s[|s| - |e'| ..]
  {
    var t := s[1..];
    assert Split(s, c) == [""] + Split(t, c);
    assert t[|t| - |e'| ..] == s[|s| - |e'| ..];
  }

  lemma SplitLastSinglePiece(s: string, c: char)
    requires |s| > 0 && s[0] != c && |Split(s[1..], c)| == 1
    ensures Split(s, c) == [s]
  {
    var t := s[1..];
    var rest := Split(t, c);
    assert Join(rest, c) == rest[0];
    assert [s[0]] + t == s;
  }

  lemma SplitLastCharFirst(s: string, c: char, e': string)
    requires |s| > 0 && s[0] != c
    requires var rest := Split(s[1..], c); |rest| > 1 && e' == rest[|rest| - 1]
    requires |e'| <= |s| - 1 && e' == s[1..][|s| - 1 - |e'| ..]
    ensures Split(s, c)[|Split(s, c)| - 1] == e' && e' == s[|s| - |e'| ..]
  {
    var t := s[1..];
    assert t[|t| - |e'| ..] == s[|s| - |e'| ..];
  }
}

=== FILE: wrappers.dfy ===
/** Failure-carrying values shared by every module of the model. */
module Wrappers {

  /** A value that may be absent (Python's `None`). */
  datatype Option<T> = None | Some(value: T)

  /** Either a computed value or the error that aborted the computation. */
  datatype Result<T, E> = Success(value: T) | Failure(error: E)
}
